=== FILE: README.md ===
# A verified model of the `cas` expression kernel

This project models the kernel of `cas`, a small term-rewriting system, in
Dafny and proves properties of the model. The kernel has three parts.

- **Expression trees** (expr.py, atom.py, head.py). An `Expr` is a head
  string, a list of children and a set of attributes. Construction does four
  things in order:
  - it promotes raw Python values to atoms (`atomize`);
  - it checks a fixed arity against the head tables;
  - it flattens children with the same head when the head is associative;
  - it sorts the children by hash when the head is commutative.

  Equality is structural.
- **Exact numbers** (nums.py): `Integer` and `Rational` arithmetic and
  comparison. A `Rational` is reduced by the gcd when it is constructed, and
  its denominator must then be positive.
- **The pattern matcher** (rule.py, `match_expr`). It matches an expression
  against a pattern that holds `Blank` wildcards, and it records their
  bindings in a dictionary that it updates in place.
  - For a non-commutative head it walks the two lists of children in
    lockstep. A Blank may absorb extra children when the head is associative.
  - For a commutative head it makes one greedy pass over the expression's
    children.

Modules:

| module | file | models |
|---|---|---|
| `Heads` | heads.dfy | the `Attribute` enum and the `HeadAttributes` / `HeadArgNumber` tables |
| `Terms` | terms.dfy | the `Expr` variants (one per Python class), raw primitives, error kinds, the `head`/`args`/`attr` accessors |
| `Nums` | nums.dfy | `Rational` construction; the `Integer` and `Rational` operator methods; Python's operator dispatch between them |
| `NumObjects` | num_objects.dfy | `Integer`/`Rational` as mutable objects, for the in-place division that `Rational.__init__` performs |
| `Atoms` | atoms.dfy | atom constructors and equality, `atomize`, `symbols`, `is_numeric` |
| `Exprs` | exprs.dfy | `Expr.__eq__`, `flatten` (the splicing loop) and `Expr.__init__` |
| `Rules` | rules.dfy | `Rule`, the specification of `match_expr` (`MatchSpec`/`Walk`/`Comm`) and the imperative matcher over a mutable binding map |
| `RuleFacts` | rule_facts.dfy | what the matcher guarantees and its quirks, as lemmas about `MatchSpec` |

Modelling conventions:

- **Exceptions.** A Python exception (`AssertionError`, `KeyError`,
  `ZeroDivisionError`, `TypeError`) is an `Err` of `Result`, and its `Error`
  says which one.
- **`NotImplemented`.** An operator method returning it is
  `Arith.NotImplemented`; a comparison returning it is `None`.
- **The sort key.** Python's `hash` is randomised per process, so it is a
  parameter `key: Expr -> int`. `list.sort` is the stable sort `SortByKey`.
- **Imperative code.**
  - `flatten`'s index loop and `Expr.__init__`'s promotion loop are methods
    (`FlattenArgs`, `Create`). Each is proved equal to a specification
    function (`Flattened`, `Construct`).
  - The binding dictionary is a `Bindings` object whose map the matcher
    methods update. The methods are proved equal to `MatchSpec`.
- **Identity tests.** String identity (`head is other.head`, `c[0] is '_'`)
  is modelled as string equality. Integer identity (`len(a) is not len(b)`)
  is modelled as integer equality.

Two behaviours of the code that a reader might not expect:

- **Rational sign.** The constructor does not normalise a negative
  denominator. `Rational.__init__` (nums.py:78-88) only divides by the gcd
  and then asserts `den > 0`, so any negative denominator raises
  (`NonPositiveDenominator`). `0/0` raises
  `ZeroDivisionError` from the division by a gcd of 0.
- **Commutative matching.** `match_expr` (rule.py:109-138) does not remove
  matched children or collect the surplus children under the last wildcard.
  It makes one greedy pass:
  - it succeeds even when concrete pattern children were never found;
  - it overwrites bindings;
  - it folds the surplus into the last bound Blank one child at a time.

## Model

| member | source | states |
|---|---|---|
| Heads.Attribute.Value | head.py:9-14 | each of the five tags has its own enum value, below 5 |
| Heads.AttributeValuesDistinct | head.py:9-14 | two tags have the same value exactly when they are the same tag |
| Heads.HeadAttributes | head.py:18-22 | `Plus` and `Mult` carry exactly Commutative and Associative, `Power` only FixedArgNum, any other head nothing (the table is a `defaultdict(list)`); no head is registered NoFlatten or Unevaluated |
| Heads.AttrSet | expr.py:11 | `set(list)` holds exactly the tags in the list |
| Heads.RegisteredArityConsistent | head.py:30-32 | a head has a registered arity exactly when it carries FixedArgNum; that head is `Power`, with arity 2 |
| Terms.Head | atom.py:5-7 | a compound has its own head; each atom class passes its class name, so `Integer`, `Symbol` and `Blank` atoms are exactly the atoms with those heads |
| Terms.Args | atom.py:6-7 | an atom is built with no children |
| Terms.Attrs | atom.py:6-7 | an atom's attribute set is empty, because no atom class name is registered |
| Nums.MakeRational | nums.py:78-88 | construction succeeds exactly when `den > 0`; `0/0` raises ZeroDivision and every other failure is NonPositiveDenominator; the result is in lowest terms with a positive denominator and has the same value (equal cross products); zero becomes `0/1` |
| Nums.ReducedParts | nums.py:83-86 | dividing by the gcd keeps the sign of the denominator, leaves coprime parts and the same cross product, and turns `0/d` into `0/1` |
| Nums.IntegerEq | nums.py:13-14 | an `Integer` equals exactly the `Integer`s of the same value; it never equals another class |
| Nums.IntegerAdd | nums.py:22-28 | `NotImplemented` exactly when the operand is not an `Integer`; otherwise an `Integer` holding the exact sum |
| Nums.IntegerNeg | nums.py:30-31 | an `Integer` holding the exact negation |
| Nums.IntegerSub | nums.py:33-36 | `NotImplemented` exactly when the operand is not an `Integer`; otherwise an `Integer` holding the exact difference |
| Nums.IntegerMul | nums.py:38-44 | `NotImplemented` exactly when the operand is not an `Integer`; otherwise an `Integer` holding the exact product |
| Nums.IntegerDiv | nums.py:46-52 | a zero divisor raises; an exact division gives the `Integer` quotient; otherwise a positive divisor gives a reduced `Rational` of the exact quotient, and a negative divisor raises because no sign is normalised |
| Nums.IntegerPow | nums.py:54-60 | a non-negative exponent gives `Integer(n^k)`; a negative exponent gives the reduced `Rational(1, n^-k)` exactly when that power is positive, and otherwise raises NonPositiveDenominator (never ZeroDivision, since the numerator is 1) |
| Nums.IntegerLt | nums.py:62-67 | against an `Integer`, the numeric order; `NotImplemented` against anything else |
| Nums.IntegerGt | nums.py:69-74 | against an `Integer`, the numeric order; `NotImplemented` against anything else |
| Nums.RationalEq | nums.py:90-91 | never equal to a non-`Rational`; between non-zero denominators, equal exactly when the values are equal |
| Nums.RationalAdd | nums.py:99-107 | with an `Integer` or `Rational` operand, a reduced `Rational` holding the exact sum; `NotImplemented` exactly for other operands |
| Nums.RationalNeg | nums.py:109-110 | a reduced `Rational` holding the exact negation |
| Nums.RationalSub | nums.py:112-117 | with an `Integer` or `Rational` operand, a reduced `Rational` holding the exact difference; `NotImplemented` exactly for other operands |
| Nums.RationalMul | nums.py:119-127 | with an `Integer` or `Rational` operand, a reduced `Rational` holding the exact product; `NotImplemented` exactly for other operands |
| Nums.RationalDiv | nums.py:129-134 | a positive divisor gives a reduced `Rational` of the exact quotient; a zero or negative divisor raises |
| Nums.RationalPow | nums.py:136-139 | a non-negative exponent gives the reduced exact power; a negative exponent always raises, because the parts' powers are not both `Integer`s |
| Nums.RationalLt | nums.py:141-146 | against an `Integer` or `Rational`, the numeric order of the values |
| Nums.RationalGt | nums.py:148-153 | against an `Integer` or `Rational`, the numeric order of the values |
| Nums.Add | nums.py:99-107 | for any two numbers, the reflected `__radd__` completes `Integer + Rational`, and the result is the exact sum: an `Integer` for two `Integer`s, else a reduced `Rational` |
| Nums.Sub | nums.py:33-36 | `Integer - Rational` raises TypeError, because there is no `__rsub__`; every other mix gives the exact difference |
| Nums.Mul | nums.py:119-127 | for any two numbers, the reflected `__rmul__` completes `Integer * Rational`, and the result is the exact product |
| Nums.Div | nums.py:129-134 | `Integer / Rational` raises TypeError; every other mix gives the exact quotient for a positive divisor; a `Rational` divided by a non-positive number raises; `Integer / Integer(0)` raises ZeroDivisionError; an `Integer` divided by a negative `Integer` gives the `Integer` quotient when it divides evenly and fails the denominator assertion when it does not (the `Integer` side is `Nums.IntegerDiv`, nums.py:46-52) |
| Nums.Less | nums.py:141-146 | for any two numbers, `<` is the order of the values; `Integer < Rational` is answered by the mirrored `Rational.__gt__` |
| Nums.Greater | nums.py:148-153 | for any two numbers, `>` is the order of the values; `Integer > Rational` is answered by the mirrored `Rational.__lt__` |
| NumObjects.IntegerObj.constructor | nums.py:8-11 | the new object holds the given integer |
| NumObjects.InitRational | nums.py:78-88 | given two distinct objects, it fails exactly as `MakeRational` does; on success the new object shares the two `Integer` objects passed in; both were divided in place by the gcd when that gcd is above 1. Given one object twice, it succeeds exactly when that object holds 1: 0 raises ZeroDivisionError, and any other value is divided by its own magnitude twice, ending at 0 or -1, and fails the denominator assertion |
| NumObjects.DivideTwiceBySelf | nums.py:85-86 | floor-dividing a number of magnitude above 1 by that magnitude twice gives 0 for a positive number and -1 for a negative one |
| NumObjects.SharedPartsRational | nums.py:78-88 | `x = Integer(5); Rational(x, x)` raises and leaves `x` at 0, while the same values in two objects give `1/1` |
| NumObjects.IntegerTrueDiv | nums.py:46-52 | the result is `IntegerDiv`'s; when the quotient is not whole, both operand objects are left divided by their gcd if it exceeds 1, and keep their values if it is 1; a whole quotient or a zero divisor leaves both unchanged |
| NumObjects.RationalMulInteger | nums.py:122-123 | the result is `RationalMul`'s, and the receiver's own denominator object is divided by the gcd |
| NumObjects.RationalDivInteger | nums.py:132-133 | the result is `RationalDiv`'s, and the receiver's own numerator object is divided by the gcd |
| NumObjects.DivisionMutatesOperands | nums.py:51 | `Integer(4) / Integer(6)` is `2/3`, and the dividend then reads 2 |
| NumObjects.ScalingMutatesReceiver | nums.py:123 | `Rational(1, 2) * Integer(2)` is `1/1`, and the receiver's denominator then reads 1 |
| NumObjects.DividingMutatesReceiver | nums.py:133 | `Rational(2, 3) / Integer(2)` is `1/3`, and the receiver's numerator then reads 1 |
| Atoms.MakeSymbol | atom.py:37-41 | `Symbol(text)` succeeds exactly when the text has no space, and keeps the text |
| Atoms.MakeBlank | rule.py:13-17 | `Blank(text)` succeeds exactly when the name has no space, and keeps the name |
| Atoms.Atomize | atom.py:77-94 | an expression comes back unchanged; `str`, `bool`, `int` and `float` become `String`, `Boolean`, `Integer` and `Real` around the same payload; any other value raises |
| Atoms.AtomizePayload | atom.py:83-90 | promoting the payload of an atom gives back that atom |
| Atoms.IsNumeric | atom.py:97-99 | true exactly for atoms of the classes `Integer`, `Rational` and `Real`, never for a compound whose head has one of those names |
| Atoms.AtomEqual | atom.py:30-31 | atom equality (also atom.py:46-47, 61-62, nums.py:13-14, 90-91, 162-163, rule.py:22-23) needs the same class; it is equality of payloads, except that rationals compare by value |
| Atoms.Split | atom.py:74 | `text.split(" ")` gives at least one piece, and no piece holds a space |
| Atoms.JoinSplit | atom.py:74 | joining the pieces of a split with single spaces gives the text back |
| Atoms.SplitJoin | atom.py:74 | splitting a join of space-free pieces gives the pieces back |
| Atoms.NonEmpty | atom.py:74 | the filter keeps only non-empty pieces and keeps everything when no piece is empty |
| Atoms.NonEmptyAppend | atom.py:74 | the filter works piece by piece: filtering a concatenation concatenates the filtered parts, so order is kept |
| Atoms.NonEmptySingle | atom.py:74 | a single piece is kept exactly when it is non-empty |
| Atoms.Words | atom.py:74 | every word `symbols` reads is non-empty and holds no space |
| Atoms.WordsOfJoin | atom.py:74 | space-free non-empty words joined by single spaces read back as exactly those words |
| Atoms.WordAtom | atom.py:74 | a word starting with `_` is `Blank` of the rest of the word, any other word is `Symbol(word)`, and neither constructor's assertion can fail |
| Atoms.Symbols | atom.py:72-74 | one atom per word, in order: the i-th atom is the `WordAtom` of the i-th word, and it spells its word back |
| Atoms.SymbolsOfSpacedText | atom.py:72-74 | `symbols(" _x  y ")` drops the empty pieces the extra spaces make and is `[Blank("x"), Symbol("y")]` |
| Atoms.SymbolsOfBlankAndSymbol | atom.py:72-74 | a text whose words are `_x` and `y` gives `[Blank("x"), Symbol("y")]` |
| Atoms.WordsOfSpacedText | atom.py:74 | the words of `" _x  y "` are `["_x", "y"]` |
| Atoms.SplitOfSpacedText | atom.py:74 | `" _x  y ".split(" ")` is `["", "_x", "", "y", ""]` |
| Atoms.NonEmptyOfSpacedPieces | atom.py:74 | filtering those pieces leaves `["_x", "y"]` |
| Atoms.NonEmptyBetweenEmpties | atom.py:74 | empty pieces before, between and after two non-empty words drop out, leaving the two words |
| Exprs.Equals | expr.py:49-59 | the loop decides structural equality: same class, same head, same number of children, children pairwise equal; attributes are not compared |
| Exprs.EqualReflexive | expr.py:49-59 | every expression equals itself |
| Exprs.EqualSymmetric | expr.py:49-59 | equality is symmetric |
| Exprs.EqualIgnoresAttributes | expr.py:49-59 | two compounds that differ only in their attribute sets are equal |
| Exprs.Insert | expr.py:25 | inserting into a key-sorted list keeps it sorted and adds exactly the one element |
| Exprs.SortByKey | expr.py:24-25 | the sort gives a permutation of the children, sorted by key |
| Exprs.InsertWithKey | expr.py:24-25 | inserting an element adds it in front of the elements of its own key and changes no other key's elements |
| Exprs.SortByKeyStable | expr.py:24-25 | the sort is stable: for every key, the elements with that key keep their relative order |
| Exprs.SortByKeyOfSorted | expr.py:24-25 | sorting an already sorted list leaves it as it is |
| Exprs.SortedPermutationUnique | expr.py:24-25 | two key-sorted permutations of the same children with distinct keys are identical |
| Exprs.SortByKeyOrderless | expr.py:24-25 | with distinct keys, the sorted order does not depend on the order the children came in |
| Exprs.FlattenDeepFlat | expr.py:37 | recursive flatten leaves no child with the parent's head |
| Exprs.FlattenOnceAppend | expr.py:32-38 | non-recursive flatten works child by child, so the relative order of the children is kept |
| Exprs.FlattenDeepAppend | expr.py:32-38 | recursive flatten works child by child, so the relative order of the children is kept |
| Exprs.FlattenOnceNoop | expr.py:33-38 | without a child of the same head, non-recursive flatten changes nothing |
| Exprs.FlattenDeepNoop | expr.py:33-38 | without a child of the same head, recursive flatten changes nothing |
| Exprs.FlattenDeepIdempotent | expr.py:37 | recursive flatten is idempotent |
| Exprs.FlattenOnceComplete | expr.py:32-38 | when the same-head children are already flat inside, non-recursive flatten leaves no same-head child and agrees with recursive flatten |
| Exprs.FlattenOnceIdempotent | expr.py:32-38 | under the same condition, a second non-recursive flatten changes nothing |
| Exprs.FlattenSpliceStep | expr.py:36-37 | after a splice, the spliced children join the finished prefix when not recursive (the index skips them), and the unfinished suffix when recursive (the index stays to look at them again) |
| Exprs.FlattenArgs | expr.py:32-38 | the splicing loop computes the non-recursive or recursive flattening of the children |
| Exprs.Flatten | expr.py:27-40 | a non-associative expression raises unless forced; otherwise the head and attributes stay, and the children are flattened, with no same-head child left when recursive |
| Exprs.AtomizeAll | expr.py:13-16 | every child is promoted with `atomize`, in place and in order; the first value that cannot be promoted raises |
| Exprs.ConstructAttrs | expr.py:11 | the attribute set is the head's registered attributes together with the given ones |
| Exprs.Construct | expr.py:8-25 | construction fails exactly on a value that cannot be promoted or a fixed-arity count mismatch (a KeyError when the arity is not registered). On success it has the head and the united attributes; its children are a permutation of the promoted, flattened-once children; they are sorted by key for a commutative head and kept in order otherwise |
| Exprs.Create | expr.py:8-25 | the constructor's promotion loop, arity check, in-place flatten and sort compute `Construct` |
| Exprs.AtomizeNodes | expr.py:13-16 | promoting children that are already expressions leaves them unchanged |
| Exprs.ConstructLeavesNoSameHeadChild | expr.py:21-22 | constructing a flattening head over children that are flat inside leaves no child with that head |
| Exprs.ConstructPairOrderless | expr.py:24-25 | with distinct keys, `Plus(a, b)` and `Plus(b, a)` construct the same expression |
| Rules.NonBlanks | rule.py:110 | the concrete pattern children: exactly the children that are not Blanks |
| Rules.NonBlanksAppend | rule.py:110 | the comprehension works child by child: the concrete children of `a + b` are those of `a` followed by those of `b`, so order and repeats are kept |
| Rules.NonBlanksSingle | rule.py:110 | one child is kept exactly when it is not a Blank |
| Rules.BlankNames | rule.py:113 | the names of exactly the Blank children |
| Rules.BlankNamesAppend | rule.py:113 | the Blank names of `a + b` are those of `a` followed by those of `b`, so pattern order and repeated names are kept |
| Rules.BlankNamesSingle | rule.py:113 | one child contributes its name exactly when it is a Blank |
| Rules.BlanksPartition | rule.py:110-113 | every pattern child lands in exactly one of the two lists |
| Rules.Append | rule.py:132 | appending to a compound binding adds the child at the end and keeps head and attributes; an atom binding is unchanged |
| Rules.MatchSpec | rule.py:59-69 | binding keys are only ever added; an atom pattern gives exactly `pattern == expr` with the map untouched; a head mismatch or a pattern with more children fails with the map untouched |
| Rules.Walk | rule.py:71-108 | the lockstep walk succeeds once the pattern is used up, even with expression children left over; it fails if the expression children run out first; keys are only added |
| Rules.Comm | rule.py:109-138 | the greedy pass succeeds once the expression children are used up; keys are only added |
| Rules.Bindings.constructor | rule.py:59 | a new binding map is empty |
| Rules.Match | rule.py:59-140 | `match_expr` updates the map exactly as `MatchSpec` says, and returns the same map object it was given |
| Rules.MatchLockstep | rule.py:71-108 | the `while` loop over the two indices computes `Walk` from the start, on the shared map |
| Rules.LockstepBlank | rule.py:81-89 | one Blank step of the loop: a bound Blank whose binding does not match ends the walk with the outcome `Walk` gives there; otherwise the map is left as the walk from the next pair of positions needs it (a fresh Blank binds the child) |
| Rules.LockstepConcrete | rule.py:90-107 | one concrete step of the loop: a sub-match that raises ends the walk with that error; a sub-match that succeeds moves both indices on; a miss goes to `LockstepFold` and keeps the pattern index |
| Rules.LockstepFold | rule.py:92-105 | after a miss, the walk fails unless the head is associative and the previous pattern child is a Blank; an unbound Blank raises KeyError; otherwise the child is folded into the binding and only the expression index moves on, all as `Walk` says |
| Rules.MatchGreedy | rule.py:109-138 | the `for` loop over the expression's children computes `Comm` over the sorted concrete children and the Blank names |
| Rules.MatchFresh | rule.py:59 | a match started with a new empty map gives exactly `MatchSpec` from the empty map |
| RuleFacts.MatchSelf | rule.py:59-140 | an expression without Blanks, in constructed order, matches itself and binds nothing |
| RuleFacts.WalkSelf | rule.py:71-108 | the lockstep walk of such an expression against itself succeeds from any position |
| RuleFacts.CommSelf | rule.py:109-138 | the greedy pass of such an expression against itself succeeds from any position |
| RuleFacts.LockstepBindsFreshBlanks | rule.py:81-89 | Blanks with distinct names that the map does not hold bind the aligned expression children; extra expression children are ignored, and the match succeeds |
| RuleFacts.WalkBindsFreshBlanks | rule.py:81-89 | from any position, the lockstep walk binds the remaining fresh Blanks to the aligned children |
| RuleFacts.CommBindsBlanks | rule.py:135-138 | under a commutative head, distinct Blanks, as many as the children, bind the children position by position in pattern order |
| RuleFacts.CommBindsBlanksFrom | rule.py:135-138 | from any position, the greedy pass binds each remaining Blank to the next child |
| RuleFacts.CommConcreteOnly | rule.py:118-134 | without Blanks, a commutative match succeeds only if every expression child matched the next concrete pattern child in key order, under the map the earlier children left, so the child counts agree |
| RuleFacts.CommConcreteMatches | rule.py:118-134 | conversely, equally many children that match the key-sorted concrete pattern children one by one make the match succeed |
| RuleFacts.CommInOrder | rule.py:118-134 | once the Blanks are used up and a miss cannot be folded (head not associative, or no Blank bound yet), the greedy pass succeeds exactly when each remaining child matches the next concrete child in turn |
| RuleFacts.CommConcreteOnlyFrom | rule.py:118-134 | from any position, a successful pass without Blanks has no more children left than concrete pattern children |
| RuleFacts.FailedMatchKeepsBindings | rule.py:104-105 | `f(a, c)` against `f(_x, b)` fails, and the binding of `_x` to `a` stays in the map |
| RuleFacts.RepeatedBlankMismatch | rule.py:82-87 | `f(a, b)` against `f(_x, _x)` fails, because the second `_x` must match its binding `a` |
| RuleFacts.RepeatedBlankMatch | rule.py:82-87 | `f(a, a)` against `f(_x, _x)` succeeds, with `_x` bound to `a` |
| RuleFacts.AssociativeAbsorption | rule.py:93-103 | `Dot(a, b, c)` against `Dot(_x, c)`: `b` is absorbed into `_x`, rebuilt by construction as `Dot(a, b)`, and the pattern cursor stays on `c`, which then matches |
| RuleFacts.FirstChildReadsLastPatternChild | rule.py:93-95 | a mismatch at pattern index 0 reads the last pattern child (index -1), so `Dot(a, b)` against `Dot(c, _y)` raises KeyError on the still unbound `_y` |
| RuleFacts.CommutativeIgnoresUnmatchedChild | rule.py:118-140 | `a + b` against `_x + c` succeeds with `_x` bound to `a + b`, although `c` was never found |
| RuleFacts.WalkBoundBlank | rule.py:82-87 | a Blank already bound goes on only if its aligned child matches its binding; otherwise the sub-match's failure or error is the walk's outcome |
| RuleFacts.WalkConcreteMiss | rule.py:91-105 | a concrete pattern child that its aligned child misses fails the whole walk unless the head is associative and the previous pattern child (the last one at index 0) is a Blank; that Blank unbound raises KeyError |
| RuleFacts.CommLeftoverFails | rule.py:124-134 | once the Blanks are used up, a child that matches no next concrete child fails the pass when the head is not associative or no Blank was bound |
| RuleFacts.CommAbsorbStep | rule.py:124-132 | once the Blanks are used up under an associative head, a child that matches no next concrete child is folded into the last bound Blank: by construction when the binding has another head, by appending when it has the same head; an unbound Blank or a failed construction raises |
| RuleFacts.DefaultMapLeaks | rule.py:59 | two calls that share the default map: `f(a)` against `f(_x)` succeeds, then `f(b)` against `f(_x)` fails because `_x` is still bound to `a` |
| RuleFacts.FreshMapsDoNotLeak | rule.py:59 | with a new map per call, both matches of that sequence succeed |

## Left out

- `Real` and `Complex` arithmetic, and `atomize` of a `complex`. This is
  floating point.
  - `Real` stays as an atom with an exact `real` payload, for `atomize`,
    `is_numeric` and equality.
  - `Complex` is not an `Expr` variant, so `is_numeric` never meets one.
- `Integer.__lt__`/`__gt__` against a raw `int` (nums.py:65-66, 72-73).
  - It is used only inside nums.py. `Integer.__pow__`'s `other < 0` is
    modelled directly as a sign test.
- Python `hash` values. Construction and matching take the sort key as a
  parameter.
- String rendering: `__str__`, `__full__` and `HeadPrintFormat`. These are
  presentation only.
- Operator sugar on `Expr` (expr.py:73-94). Operators between a number and a
  compound are left out too.
- `Expr.copy` and `flatten(copy=True)`. `copy` slices a `set` (expr.py:46)
  and would raise; the in-place path is modelled.
- `main.py`, `apply_rule` and `ExprCondition`. The first is a demo driver.
  The second is not defined in any file of the system. The third is an empty
  stub.
- In-place updates of expressions, which are modelled as values.
  - `flatten` returns its result instead of splicing into a shared object.
  - The caller's argument list is copied (expr.py:10), so no aliasing is
    lost there.
  - Rules.Append: `matched_value.args.append(...)` (rule.py:132) mutates a
    binding that may be a subtree of the matched expression. The model gives
    the binding a new value and does not change the expression that the
    binding came from.
  - Appending to an atom binding changes nothing that equality or the model
    can observe.
- rule.py:99-101. The test at rule.py:96 compares an `Expr` with a `str`, so
  it is always true and these lines never run. Only the construction branch
  is modelled.
- CPython object identity. `is` on strings and small integers is equality
  here.
- Exprs.Equals, Exprs.EqualReflexive: `len(self.args) is not len(other.args)`
  (expr.py:54) is an identity test. CPython caches only the integers up to
  256, so two compounds with more than 256 children compare unequal, even
  `e == e`. The model compares the lengths as numbers, so reflexivity does
  not hold of the program for such expressions.
- Rules.MatchSpec: a recursion that would exceed Python's recursion limit is
  not modelled.
- Atoms.AtomEqual: `Complex.__eq__` is not modelled (see above).
- Nums.Add, Nums.Sub, Nums.Mul, Nums.Div, Nums.Less, Nums.Greater: only
  operands that are numbers are covered. An operand that is a `Rational`
  whose denominator is not positive cannot be constructed.

## Findings

| source | as written | input that shows it | evidently intended | confidence | as-written member | corrected member |
|---|---|---|---|---|---|---|
| nums.py:51 | `Integer.__truediv__` passes its own operand objects to `Rational(...)`, whose constructor divides their `n` fields by the gcd in place | `a = Integer(4); a / Integer(6)` gives `2/3` and leaves `a` reading `2` | the quotient without changing either operand | not executed | NumObjects.DivisionMutatesOperands | Nums.IntegerDiv |
| nums.py:123 | `Rational.__mul__` by an `Integer` passes the receiver's own denominator object to `Rational(...)`, which divides it in place | `h = Rational(1, 2); h * Integer(2)` gives `1/1` and leaves `h` reading `1/1` | the product without changing the receiver | not executed | NumObjects.ScalingMutatesReceiver | Nums.RationalMul |
| nums.py:133 | `Rational.__truediv__` by an `Integer` passes the receiver's own numerator object to `Rational(...)`, which divides it in place | `t = Rational(2, 3); t / Integer(2)` gives `1/3` and leaves `t` reading `1/3` | the quotient without changing the receiver | not executed | NumObjects.DividingMutatesReceiver | Nums.RationalDiv |
| rule.py:59 | the default `blank_map={}` is one dictionary shared by every call that omits the map | `match_expr(f(a), f(_x))` then `match_expr(f(b), f(_x))`: the second fails, because `_x` is still bound to `a` | a new empty map for each call (`RuleFacts.FreshMapsDoNotLeak`: both succeed) | not executed | RuleFacts.DefaultMapLeaks | Rules.MatchFresh |

=== FILE: atoms.dfy ===
/**
 * The atom classes of atom.py (and the `Blank` wildcard of rule.py): their
 * constructors and equality, promotion of primitives (`atomize`), the
 * `symbols` tokenizer and `is_numeric`.
 */
module Atoms {
  import opened Heads
  import opened Terms
  import opened Nums

  const TRUE: Expr := Boolean(true)
  const FALSE: Expr := Boolean(false)

  predicate IsAtom(e: Expr)
  {
    !e.Compound?
  }

  /** `Symbol(text)`: the text may not contain a space. */
  function MakeSymbol(text: string): (r: Result<Expr>)
    ensures r.Ok? <==> ' ' !in text
    ensures r.Ok? ==> r.value.Symbol? && r.value.text == text
    ensures r.Err? ==> r.error == InvalidSymbolText
  {
    if ' ' in text then Err(InvalidSymbolText) else Ok(Symbol(text))
  }

  /** `Blank(text)` (rule.py:13-17): the name may not contain a space. */
  function MakeBlank(text: string): (r: Result<Expr>)
    ensures r.Ok? <==> ' ' !in text
    ensures r.Ok? ==> r.value.Blank? && r.value.text == text
    ensures r.Err? ==> r.error == InvalidSymbolText
  {
    if ' ' in text then Err(InvalidSymbolText) else Ok(Blank(text))
  }

  /** The Python value an atom wraps; any other expression stands for itself. */
  function Payload(e: Expr): Primitive
  {
    match e
    case String(s) => Text(s)
    case Boolean(b) => Bool(b)
    case Integer(n) => Int(n)
    case Real(r) => Float(r)
    case _ => Node(e)
  }

  /**
   * `atomize(primitive)`: an expression is returned as it is; `str`, `bool`,
   * `int` and `float` are wrapped in the atom class of that exact type; any
   * other value raises.
   */
  function Atomize(p: Primitive): (r: Result<Expr>)
    ensures r.Ok? <==> !p.Other?
    ensures p.Node? ==> r == Ok(p.e)
    ensures r.Ok? && !p.Node? ==> Payload(r.value) == p
    ensures p.Text? ==> r.Ok? && Head(r.value) == "String"
    ensures p.Bool? ==> r.Ok? && Head(r.value) == "Boolean"
    ensures p.Int? ==> r.Ok? && Head(r.value) == "Integer"
    ensures p.Float? ==> r.Ok? && Head(r.value) == "Real"
    ensures r.Err? ==> r.error == UnsupportedPrimitive
  {
    match p
    case Node(e) => Ok(e)
    case Text(s) => Ok(String(s))
    case Bool(b) => Ok(Boolean(b))
    case Int(i) => Ok(Integer(i))
    case Float(f) => Ok(Real(f))
    case Other => Err(UnsupportedPrimitive)
  }

  /** Atomizing the payload of an expression gives the expression back. */
  lemma AtomizePayload(e: Expr)
    ensures Atomize(Payload(e)) == Ok(e)
  {
  }

  /**
   * `is_numeric(expr)`: true exactly for the number classes; it tests the
   * class, so a compound whose head is spelt like one is not numeric.
   */
  function IsNumeric(e: Expr): (b: bool)
    ensures b <==> IsAtom(e) && Head(e) in {"Integer", "Rational", "Real"}
  {
    e.Integer? || e.Rational? || e.Real?
  }

  /**
   * Equality of an atom with any expression (atom.py:30-31, 46-47, 61-62,
   * nums.py:13-14, 90-91, 162-163, rule.py:22-23): same class and same payload,
   * rationals by cross-multiplication.
   */
  function AtomEqual(a: Expr, b: Expr): (eq: bool)
    requires IsAtom(a)
    ensures eq ==> Head(a) == Head(b)
    ensures !a.Rational? ==> (eq <==> a == b)
    ensures a.Rational? && a.den != 0 && b.Rational? && b.den != 0 ==>
      (eq <==> ExactValue(a) == ExactValue(b))
  {
    match a
    case String(s) => b.String? && s == b.text
    case Symbol(s) => b.Symbol? && s == b.text
    case Boolean(v) => b.Boolean? && v == b.value
    case Integer(n) => IntegerEq(n, b)
    case Rational(num, den) => RationalEq(num, den, b)
    case Real(r) => b.Real? && r == b.r
    case Blank(s) => b.Blank? && s == b.text
  }

  // ---------------------------------------------------------------------------
  // symbols(text)

  /** `text.split(" ")`: the pieces between single spaces, empty ones included. */
  function Split(text: string): (parts: seq<string>)
    ensures |parts| >= 1
    ensures forall i :: 0 <= i < |parts| ==> ' ' !in parts[i]
    decreases |text|
  {
    if |text| == 0 then
      [""]
    else
      var rest := Split(text[1..]);
      if text[0] == ' ' then [""] + rest else [[text[0]] + rest[0]] + rest[1..]
  }

  /** `" ".join(parts)`. */
  function Join(parts: seq<string>): string
    requires |parts| >= 1
  {
    if |parts| == 1 then parts[0] else parts[0] + " " + Join(parts[1..])
  }

  /** Joining the pieces of a split gives the text back. */
  lemma {:induction false} JoinSplit(text: string)
    ensures Join(Split(text)) == text
    decreases |text|
  {
    if |text| > 0 {
      var rest := Split(text[1..]);
      JoinSplit(text[1..]);
      if text[0] == ' ' {
        assert Split(text)[1..] == rest;
      } else {
        var parts := Split(text);
        assert parts[0] == [text[0]] + rest[0] && parts[1..] == rest[1..];
        if |rest| > 1 {
          assert Join(rest) == rest[0] + " " + Join(rest[1..]);
        }
      }
    }
  }

  lemma {:induction false} SplitJoinHead(p: string, rest: seq<string>)
    requires |rest| >= 1 && ' ' !in p
    ensures Split(p + " " + Join(rest)) == [p] + Split(Join(rest))
    decreases |p|
  {
    if |p| == 0 {
      assert p + " " + Join(rest) == [' '] + Join(rest);
    } else {
      var s := p + " " + Join(rest);
      assert s[1..] == p[1..] + " " + Join(rest);
      SplitJoinHead(p[1..], rest);
      assert [p[0]] + p[1..] == p;
    }
  }

  lemma {:induction false} SplitSingle(p: string)
    requires ' ' !in p
    ensures Split(p) == [p]
    decreases |p|
  {
    if |p| > 0 {
      SplitSingle(p[1..]);
      assert [p[0]] + p[1..] == p;
    }
  }

  /** Splitting a join of space-free pieces gives the pieces back. */
  lemma {:induction false} SplitJoin(parts: seq<string>)
    requires |parts| >= 1
    requires forall i :: 0 <= i < |parts| ==> ' ' !in parts[i]
    ensures Split(Join(parts)) == parts
    decreases |parts|
  {
    if |parts| == 1 {
      SplitSingle(parts[0]);
    } else {
      SplitJoin(parts[1..]);
      SplitJoinHead(parts[0], parts[1..]);
      assert [parts[0]] + parts[1..] == parts;
    }
  }

  /** The non-empty pieces, in order. */
  function NonEmpty(parts: seq<string>): (words: seq<string>)
    ensures |words| <= |parts|
    ensures forall w :: w in words ==> w in parts && |w| > 0
    ensures (forall i :: 0 <= i < |parts| ==> |parts[i]| > 0) ==> words == parts
  {
    if |parts| == 0 then []
    else if |parts[0]| == 0 then NonEmpty(parts[1..])
    else [parts[0]] + NonEmpty(parts[1..])
  }

  /** The filter works piece by piece, so it keeps the order of the pieces. */
  lemma {:induction false} NonEmptyAppend(a: seq<string>, b: seq<string>)
    ensures NonEmpty(a + b) == NonEmpty(a) + NonEmpty(b)
    decreases |a|
  {
    if |a| == 0 {
      assert a + b == b;
    } else {
      assert (a + b)[0] == a[0] && (a + b)[1..] == a[1..] + b;
      NonEmptyAppend(a[1..], b);
    }
  }

  /** A single piece is kept exactly when it is not empty. */
  lemma NonEmptySingle(p: string)
    ensures NonEmpty([p]) == if |p| > 0 then [p] else []
  {
    assert [p][1..] == [];
  }

  /** The words `symbols` reads from a text. */
  function Words(text: string): (words: seq<string>)
    ensures forall i :: 0 <= i < |words| ==> |words[i]| > 0 && ' ' !in words[i]
  {
    NonEmpty(Split(text))
  }

  /** A text made of space-free words separated by single spaces reads back as those words. */
  lemma WordsOfJoin(words: seq<string>)
    requires |words| >= 1
    requires forall i :: 0 <= i < |words| ==> |words[i]| > 0 && ' ' !in words[i]
    ensures Words(Join(words)) == words
  {
    SplitJoin(words);
  }

  /** The atom for one word: `_name` is `Blank(name)`, anything else a `Symbol`. */
  function WordAtom(word: string): (e: Expr)
    requires |word| > 0 && ' ' !in word
    ensures word[0] == '_' ==> e == Blank(word[1..])
    ensures word[0] != '_' ==> e == Symbol(word)
    ensures e.Blank? <==> word[0] == '_'
    ensures e.Blank? ==> MakeBlank(word[1..]) == Ok(e)
    ensures e.Symbol? ==> MakeSymbol(word) == Ok(e)
  {
    if word[0] == '_' then Blank(word[1..]) else Symbol(word)
  }

  /** The word an atom from `symbols` was read from. */
  function WordOf(e: Expr): string
  {
    if e.Blank? then "_" + e.text else if e.Symbol? then e.text else ""
  }

  /**
   * `symbols(text)`: one atom per non-empty word, in order; the `Blank` and
   * `Symbol` assertions cannot fail because words hold no space.
   */
  function Symbols(text: string): (atoms: seq<Expr>)
    ensures |atoms| == |Words(text)|
    ensures forall i :: 0 <= i < |atoms| ==> atoms[i] == WordAtom(Words(text)[i])
    ensures forall i :: 0 <= i < |atoms| ==>
      (atoms[i].Blank? || atoms[i].Symbol?) && WordOf(atoms[i]) == Words(text)[i]
  {
    var words := Words(text);
    seq(|words|, i requires 0 <= i < |words| => WordAtom(words[i]))
  }

  /** Repeated, leading and trailing spaces give empty pieces, which `symbols` drops. */
  lemma SymbolsOfSpacedText()
    ensures Symbols(" _x  y ") == [Blank("x"), Symbol("y")]
  {
    WordsOfSpacedText();
    SymbolsOfBlankAndSymbol(" _x  y ");
  }

  /** Any text whose words are `_x` and `y` reads as the Blank `x` and the Symbol `y`. */
  lemma SymbolsOfBlankAndSymbol(text: string)
    requires Words(text) == ["_x", "y"]
    ensures Symbols(text) == [Blank("x"), Symbol("y")]
  {
    var atoms := Symbols(text);
    assert "_x"[1..] == "x";
    assert atoms[0] == WordAtom("_x") == Blank("x");
    assert atoms[1] == WordAtom("y") == Symbol("y");
  }

  /** The words of the text with extra spaces are its two non-empty pieces. */
  lemma WordsOfSpacedText()
    ensures Words(" _x  y ") == ["_x", "y"]
  {
    SplitOfSpacedText();
    NonEmptyOfSpacedPieces();
  }

  lemma SplitOfSpacedText()
    ensures Split(" _x  y ") == ["", "_x", "", "y", ""]
  {
    var parts := ["", "_x", "", "y", ""];
    assert Join(parts[3..]) == "y ";
    assert Join(parts[1..]) == "_x  y ";
    SplitJoin(parts);
  }

  lemma NonEmptyOfSpacedPieces()
    ensures NonEmpty(["", "_x", "", "y", ""]) == ["_x", "y"]
  {
    NonEmptyBetweenEmpties("_x", "y");
  }

  /** Empty pieces around and between two words drop out. */
  lemma NonEmptyBetweenEmpties(a: string, b: string)
    requires |a| > 0 && |b| > 0
    ensures NonEmpty(["", a, "", b, ""]) == [a, b]
  {
    var p0: seq<string> := ["", a, "", b, ""];
    var p1, p2, p3, p4 := p0[1..], p0[2..], p0[3..], p0[4..];
    assert p0[1..] == p1 && p1[1..] == p2 && p2[1..] == p3 && p3[1..] == p4 && |p4[1..]| == 0;
    assert p0[0] == "" && p1[0] == a && p2[0] == "" && p3[0] == b && p4[0] == "";
    assert NonEmpty(p4) == [];
    assert NonEmpty(p3) == [b];
    assert NonEmpty(p2) == [b];
    assert [a] + [b] == [a, b];
    assert NonEmpty(p1) == [a, b];
  }
}

=== FILE: exprs.dfy ===
/**
 * The `Expr` class of expr.py: structural equality, flattening of associative
 * heads, and construction (promotion of children, arity check, flatten on
 * create, commutative ordering by a hash key).
 *
 * Python's `hash` is process-randomised, so the sort key is a parameter
 * `key: Expr -> int` standing for it.
 */
module Exprs {
  import opened Heads
  import opened Terms
  import opened Nums
  import opened Atoms

  // ---------------------------------------------------------------------------
  // Structural equality (expr.py:49-59)

  /**
   * `a == b`: a compound equals a compound with the same head, the same number
   * of children and pairwise-equal children; attributes are not compared. An
   * atom uses its own class's equality.
   */
  predicate Equal(a: Expr, b: Expr)
    decreases a
  {
    if a.Compound? then
      && b.Compound?
      && a.head == b.head
      && |a.args| == |b.args|
      && forall i :: 0 <= i < |a.args| ==> Equal(a.args[i], b.args[i])
    else
      AtomEqual(a, b)
  }

  /** `Expr.__eq__`, with the loop over the children. */
  method Equals(a: Expr, b: Expr) returns (eq: bool)
    ensures eq == Equal(a, b)
    decreases a
  {
    if !a.Compound? {
      return AtomEqual(a, b);
    }
    if !b.Compound? {
      return false;
    }
    if a.head != b.head {
      return false;
    }
    if |a.args| != |b.args| {
      return false;
    }
    for i := 0 to |a.args|
      invariant forall j :: 0 <= j < i ==> Equal(a.args[j], b.args[j])
    {
      var same := Equals(a.args[i], b.args[i]);
      if !same {
        return false;
      }
    }
    return true;
  }

  /** Every expression equals itself. */
  lemma {:induction false} EqualReflexive(a: Expr)
    ensures Equal(a, a)
    decreases a
  {
    if a.Compound? {
      forall i | 0 <= i < |a.args|
        ensures Equal(a.args[i], a.args[i])
      {
        EqualReflexive(a.args[i]);
      }
    }
  }

  /** Equality is symmetric. */
  lemma {:induction false} EqualSymmetric(a: Expr, b: Expr)
    requires Equal(a, b)
    ensures Equal(b, a)
    decreases a
  {
    if a.Compound? {
      forall i | 0 <= i < |b.args|
        ensures Equal(b.args[i], a.args[i])
      {
        EqualSymmetric(a.args[i], b.args[i]);
      }
    }
  }

  /** Two compounds that differ only in their attribute sets are equal. */
  lemma EqualIgnoresAttributes(h: string, args: seq<Expr>, x: set<Attribute>, y: set<Attribute>)
    ensures Equal(Compound(h, args, x), Compound(h, args, y))
  {
    forall i | 0 <= i < |args|
      ensures Equal(args[i], args[i])
    {
      EqualReflexive(args[i]);
    }
  }

  // ---------------------------------------------------------------------------
  // Ordering by key (`list.sort(key=hash)`, expr.py:25 and rule.py:111)

  predicate SortedBy(key: Expr -> int, s: seq<Expr>)
  {
    forall i, j :: 0 <= i < j < |s| ==> key(s[i]) <= key(s[j])
  }

  /** Inserts `x` before the first element whose key is not smaller. */
  function Insert(key: Expr -> int, x: Expr, s: seq<Expr>): (r: seq<Expr>)
    requires SortedBy(key, s)
    ensures SortedBy(key, r)
    ensures multiset(r) == multiset(s) + multiset{x}
    ensures |r| == |s| + 1
    ensures forall y :: y in r ==> y == x || y in s
  {
    if |s| == 0 || key(x) <= key(s[0]) then
      [x] + s
    else
      var t := Insert(key, x, s[1..]);
      assert s == [s[0]] + s[1..];
      assert forall j :: 0 <= j < |t| ==> key(s[0]) <= key(t[j]) by {
        forall j | 0 <= j < |t|
          ensures key(s[0]) <= key(t[j])
        {
          assert t[j] in t;
        }
      }
      [s[0]] + t
  }

  /**
   * The stable sort by key that `list.sort` performs: elements with equal
   * keys keep their order.
   */
  function SortByKey(key: Expr -> int, s: seq<Expr>): (r: seq<Expr>)
    ensures SortedBy(key, r)
    ensures multiset(r) == multiset(s)
    ensures |r| == |s|
  {
    if |s| == 0 then
      []
    else
      assert s == [s[0]] + s[1..];
      Insert(key, s[0], SortByKey(key, s[1..]))
  }

  /** Sorting an already sorted sequence leaves it as it is. */
  lemma {:induction false} SortByKeyOfSorted(key: Expr -> int, s: seq<Expr>)
    requires SortedBy(key, s)
    ensures SortByKey(key, s) == s
  {
    if |s| > 0 {
      SortByKeyOfSorted(key, s[1..]);
      assert s == [s[0]] + s[1..];
    }
  }

  /** The elements of `s` whose key is `k`, in their order in `s`. */
  function WithKey(key: Expr -> int, s: seq<Expr>, k: int): seq<Expr>
  {
    if |s| == 0 then []
    else (if key(s[0]) == k then [s[0]] else []) + WithKey(key, s[1..], k)
  }

  /** Inserting puts `x` after nothing of its own key, so that group keeps its order. */
  lemma {:induction false} InsertWithKey(key: Expr -> int, x: Expr, s: seq<Expr>, k: int)
    requires SortedBy(key, s)
    ensures WithKey(key, Insert(key, x, s), k) ==
      (if key(x) == k then [x] else []) + WithKey(key, s, k)
  {
    if |s| == 0 || key(x) <= key(s[0]) {
      var r := [x] + s;
      assert Insert(key, x, s) == r;
      assert r[0] == x && r[1..] == s;
    } else {
      var t := Insert(key, x, s[1..]);
      var r := [s[0]] + t;
      assert Insert(key, x, s) == r;
      assert r[0] == s[0] && r[1..] == t;
      InsertWithKey(key, x, s[1..], k);
      if key(s[0]) == k {
        assert key(x) != k;
      }
    }
  }

  /** Stability: sorting keeps the relative order of the elements of each key. */
  lemma {:induction false} SortByKeyStable(key: Expr -> int, s: seq<Expr>, k: int)
    ensures WithKey(key, SortByKey(key, s), k) == WithKey(key, s, k)
  {
    if |s| > 0 {
      SortByKeyStable(key, s[1..], k);
      InsertWithKey(key, s[0], SortByKey(key, s[1..]), k);
    }
  }

  /** No two distinct elements of `s` share a key. */
  predicate KeyInjective(key: Expr -> int, s: seq<Expr>)
  {
    forall a, b :: a in s && b in s && key(a) == key(b) ==> a == b
  }

  /** The first element of a sorted sequence has the least key. */
  lemma SortedHeadLeast(key: Expr -> int, s: seq<Expr>, y: Expr)
    requires SortedBy(key, s) && y in s
    ensures key(s[0]) <= key(y)
  {
    var j :| 0 <= j < |s| && s[j] == y;
  }

  lemma MultisetTails(s: seq<Expr>, t: seq<Expr>)
    requires |s| > 0 && |t| > 0 && s[0] == t[0] && multiset(s) == multiset(t)
    ensures multiset(s[1..]) == multiset(t[1..])
  {
    assert s == [s[0]] + s[1..] && t == [t[0]] + t[1..];
    assert multiset(s) == multiset{s[0]} + multiset(s[1..]);
    assert multiset(t) == multiset{t[0]} + multiset(t[1..]);
    assert multiset(s[1..]) == multiset(s) - multiset{s[0]};
    assert multiset(t[1..]) == multiset(t) - multiset{t[0]};
  }

  /** Two key-sorted permutations of the same elements, with distinct keys, are identical. */
  lemma {:induction false} SortedPermutationUnique(key: Expr -> int, s: seq<Expr>, t: seq<Expr>)
    requires SortedBy(key, s) && SortedBy(key, t)
    requires multiset(s) == multiset(t)
    requires KeyInjective(key, s)
    ensures s == t
    decreases |s|
  {
    SameSize(s, t);
    if |s| > 0 {
      SortedHeadsAgree(key, s, t);
      MultisetTails(s, t);
      SortedTail(key, s);
      SortedTail(key, t);
      KeyInjectiveTail(key, s);
      SortedPermutationUnique(key, s[1..], t[1..]);
      assert s == [s[0]] + s[1..] && t == [t[0]] + t[1..];
    }
  }

  lemma SameSize(s: seq<Expr>, t: seq<Expr>)
    requires multiset(s) == multiset(t)
    ensures |s| == |t|
  {
    assert |s| == |multiset(s)| && |t| == |multiset(t)|;
  }

  lemma SortedHeadsAgree(key: Expr -> int, s: seq<Expr>, t: seq<Expr>)
    requires SortedBy(key, s) && SortedBy(key, t) && |s| > 0 && |t| > 0
    requires multiset(s) == multiset(t) && KeyInjective(key, s)
    ensures s[0] == t[0]
  {
    assert s[0] in multiset(t) && t[0] in multiset(s);
    SortedHeadLeast(key, s, t[0]);
    SortedHeadLeast(key, t, s[0]);
  }

  lemma SortedTail(key: Expr -> int, s: seq<Expr>)
    requires SortedBy(key, s) && |s| > 0
    ensures SortedBy(key, s[1..])
  {
  }

  lemma KeyInjectiveTail(key: Expr -> int, s: seq<Expr>)
    requires KeyInjective(key, s) && |s| > 0
    ensures KeyInjective(key, s[1..])
  {
    assert forall y :: y in s[1..] ==> y in s;
  }

  /** With distinct keys, the sorted order does not depend on the input order. */
  lemma SortByKeyOrderless(key: Expr -> int, s: seq<Expr>, t: seq<Expr>)
    requires multiset(s) == multiset(t)
    requires KeyInjective(key, s)
    ensures SortByKey(key, s) == SortByKey(key, t)
  {
    var u, v := SortByKey(key, s), SortByKey(key, t);
    assert forall x :: x in u <==> x in s by {
      forall x ensures x in u <==> x in s {
        assert x in u <==> x in multiset(u);
        assert x in s <==> x in multiset(s);
      }
    }
    SortedPermutationUnique(key, u, v);
  }

  // ---------------------------------------------------------------------------
  // Flattening (expr.py:27-40)

  /** What one same-head child turns into: its own children (none for an atom). */
  function Splice(h: string, c: Expr): seq<Expr>
  {
    if Head(c) == h then Args(c) else [c]
  }

  /**
   * Non-recursive flatten: each child with head `h` is replaced by its
   * children, which are not examined again; every other child stays.
   */
  function FlattenOnce(h: string, s: seq<Expr>): (r: seq<Expr>)
  {
    if |s| == 0 then [] else Splice(h, s[0]) + FlattenOnce(h, s[1..])
  }

  /** What one same-head child turns into under recursive flatten: its own children, flattened. */
  function DeepSplice(h: string, c: Expr): (r: seq<Expr>)
    decreases c, 1
  {
    if Head(c) != h then [c] else if c.Compound? then FlattenDeep(h, c.args) else []
  }

  /** Recursive flatten: children with head `h` are replaced by their own flattening. */
  function FlattenDeep(h: string, s: seq<Expr>): (r: seq<Expr>)
    decreases s, 0
  {
    if |s| == 0 then [] else DeepSplice(h, s[0]) + FlattenDeep(h, s[1..])
  }

  /** Recursive flatten leaves no child of head `h`. */
  lemma {:induction false} FlattenDeepFlat(h: string, s: seq<Expr>)
    ensures forall i :: 0 <= i < |FlattenDeep(h, s)| ==> Head(FlattenDeep(h, s)[i]) != h
    decreases s, 0
  {
    if |s| > 0 {
      DeepSpliceFlat(h, s[0]);
      FlattenDeepFlat(h, s[1..]);
    }
  }

  lemma {:induction false} DeepSpliceFlat(h: string, c: Expr)
    ensures forall i :: 0 <= i < |DeepSplice(h, c)| ==> Head(DeepSplice(h, c)[i]) != h
    decreases c, 1
  {
    if Head(c) == h && c.Compound? {
      FlattenDeepFlat(h, c.args);
    }
  }

  /** The specification of the flatten loop in either mode. */
  function Flattened(h: string, s: seq<Expr>, recursive: bool): seq<Expr>
  {
    if recursive then FlattenDeep(h, s) else FlattenOnce(h, s)
  }

  lemma {:induction false} FlattenOnceAppend(h: string, a: seq<Expr>, b: seq<Expr>)
    ensures FlattenOnce(h, a + b) == FlattenOnce(h, a) + FlattenOnce(h, b)
    decreases |a|
  {
    if |a| == 0 {
      assert a + b == b;
    } else {
      assert (a + b)[1..] == a[1..] + b;
      FlattenOnceAppend(h, a[1..], b);
    }
  }

  lemma {:induction false} FlattenDeepAppend(h: string, a: seq<Expr>, b: seq<Expr>)
    ensures FlattenDeep(h, a + b) == FlattenDeep(h, a) + FlattenDeep(h, b)
    decreases |a|
  {
    if |a| == 0 {
      assert a + b == b;
    } else {
      assert (a + b)[0] == a[0] && (a + b)[1..] == a[1..] + b;
      FlattenDeepAppend(h, a[1..], b);
      var first, rest, tail := DeepSplice(h, a[0]), FlattenDeep(h, a[1..]), FlattenDeep(h, b);
      assert first + (rest + tail) == (first + rest) + tail;
    }
  }

  /** Without a child of head `h`, non-recursive flatten changes nothing. */
  lemma {:induction false} FlattenOnceNoop(h: string, s: seq<Expr>)
    requires forall i :: 0 <= i < |s| ==> Head(s[i]) != h
    ensures FlattenOnce(h, s) == s
  {
    if |s| > 0 {
      FlattenOnceNoop(h, s[1..]);
      assert s == [s[0]] + s[1..];
    }
  }

  /** Without a child of head `h`, recursive flatten changes nothing. */
  lemma {:induction false} FlattenDeepNoop(h: string, s: seq<Expr>)
    requires forall i :: 0 <= i < |s| ==> Head(s[i]) != h
    ensures FlattenDeep(h, s) == s
  {
    if |s| > 0 {
      FlattenDeepNoop(h, s[1..]);
      assert s == [s[0]] + s[1..];
    }
  }

  /** Recursive flatten is idempotent. */
  lemma FlattenDeepIdempotent(h: string, s: seq<Expr>)
    ensures FlattenDeep(h, FlattenDeep(h, s)) == FlattenDeep(h, s)
  {
    FlattenDeepFlat(h, s);
    FlattenDeepNoop(h, FlattenDeep(h, s));
  }

  /** No child with head `h` has a child with head `h` itself. */
  predicate FlatBelow(h: string, s: seq<Expr>)
  {
    forall i, j :: 0 <= i < |s| && Head(s[i]) == h && 0 <= j < |Args(s[i])| ==> Head(Args(s[i])[j]) != h
  }

  /**
   * When the children of head `h` are themselves flat, non-recursive flatten
   * leaves no child of head `h` and agrees with recursive flatten.
   */
  lemma FlattenOnceComplete(h: string, s: seq<Expr>)
    requires FlatBelow(h, s)
    ensures forall i :: 0 <= i < |FlattenOnce(h, s)| ==> Head(FlattenOnce(h, s)[i]) != h
    ensures FlattenOnce(h, s) == FlattenDeep(h, s)
  {
    FlattenOnceAgrees(h, s);
  }

  lemma {:induction false} FlattenOnceAgrees(h: string, s: seq<Expr>)
    requires FlatBelow(h, s)
    ensures FlattenOnce(h, s) == FlattenDeep(h, s)
  {
    if |s| > 0 {
      FlatBelowTail(h, s);
      FlattenOnceAgrees(h, s[1..]);
      FlattenFirstAgrees(h, s);
    }
  }

  lemma FlatBelowTail(h: string, s: seq<Expr>)
    requires |s| > 0 && FlatBelow(h, s)
    ensures FlatBelow(h, s[1..])
  {
    forall i, j | 0 <= i < |s[1..]| && Head(s[1..][i]) == h && 0 <= j < |Args(s[1..][i])|
      ensures Head(Args(s[1..][i])[j]) != h
    {
      assert s[1..][i] == s[i + 1];
    }
  }

  /** On the first child, the two flattens produce the same children. */
  lemma FlattenFirstAgrees(h: string, s: seq<Expr>)
    requires |s| > 0 && FlatBelow(h, s)
    ensures Splice(h, s[0]) == if Head(s[0]) != h then [s[0]] else if s[0].Compound? then FlattenDeep(h, s[0].args) else []
  {
    if Head(s[0]) == h && s[0].Compound? {
      assert forall j :: 0 <= j < |s[0].args| ==> Head(s[0].args[j]) != h by {
        forall j | 0 <= j < |s[0].args|
          ensures Head(s[0].args[j]) != h
        {
          assert Args(s[0]) == s[0].args;
        }
      }
      FlattenDeepNoop(h, s[0].args);
    }
  }

  /** A second non-recursive flatten of flat-below children changes nothing. */
  lemma FlattenOnceIdempotent(h: string, s: seq<Expr>)
    requires FlatBelow(h, s)
    ensures FlattenOnce(h, FlattenOnce(h, s)) == FlattenOnce(h, s)
  {
    FlattenOnceComplete(h, s);
    FlattenOnceNoop(h, FlattenOnce(h, s));
  }

  lemma FlattenSingle(h: string, c: Expr)
    ensures FlattenOnce(h, [c]) == Splice(h, c)
    ensures Head(c) != h ==> FlattenDeep(h, [c]) == [c]
    ensures Head(c) == h ==> FlattenDeep(h, [c]) == FlattenDeep(h, Args(c))
  {
    assert [c][1..] == [];
  }

  /** Keeping a child of another head moves it into the finished prefix. */
  lemma FlattenKeepStep(h: string, pre: seq<Expr>, c: Expr, rest: seq<Expr>, recursive: bool)
    requires Head(c) != h
    ensures (pre + [c]) + Flattened(h, rest, recursive) == pre + Flattened(h, [c] + rest, recursive)
  {
    var tail := Flattened(h, rest, recursive);
    KeepFirst(h, c, rest, recursive);
    assert (pre + [c]) + tail == pre + ([c] + tail);
  }

  lemma KeepFirst(h: string, c: Expr, rest: seq<Expr>, recursive: bool)
    requires Head(c) != h
    ensures Flattened(h, [c] + rest, recursive) == [c] + Flattened(h, rest, recursive)
  {
    assert ([c] + rest)[0] == c && ([c] + rest)[1..] == rest;
    if recursive {
      assert FlattenDeep(h, [c] + rest) == [c] + FlattenDeep(h, rest);
    } else {
      assert FlattenOnce(h, [c] + rest) == Splice(h, c) + FlattenOnce(h, rest);
    }
  }

  /**
   * Splicing a child of head `h`: its children join the finished prefix in
   * non-recursive mode, and the unfinished suffix in recursive mode.
   */
  lemma FlattenSpliceStep(h: string, pre: seq<Expr>, c: Expr, rest: seq<Expr>, recursive: bool)
    requires Head(c) == h
    ensures !recursive ==>
      (pre + Args(c)) + Flattened(h, rest, false) == pre + Flattened(h, [c] + rest, false)
    ensures recursive ==>
      pre + Flattened(h, Args(c) + rest, true) == pre + Flattened(h, [c] + rest, true)
  {
    if recursive {
      SpliceDeep(h, c, rest);
    } else {
      var tail := FlattenOnce(h, rest);
      SpliceOnce(h, c, rest);
      assert Flattened(h, rest, false) == tail;
      assert (pre + Args(c)) + tail == pre + (Args(c) + tail);
    }
  }

  lemma SpliceOnce(h: string, c: Expr, rest: seq<Expr>)
    requires Head(c) == h
    ensures FlattenOnce(h, [c] + rest) == Args(c) + FlattenOnce(h, rest)
  {
    assert ([c] + rest)[0] == c && ([c] + rest)[1..] == rest;
  }

  lemma SpliceDeep(h: string, c: Expr, rest: seq<Expr>)
    requires Head(c) == h
    ensures FlattenDeep(h, [c] + rest) == FlattenDeep(h, Args(c) + rest)
  {
    assert ([c] + rest)[0] == c && ([c] + rest)[1..] == rest;
    assert FlattenDeep(h, [c] + rest) == FlattenDeep(h, Args(c)) + FlattenDeep(h, rest);
    FlattenDeepAppend(h, Args(c), rest);
  }

  /** The loop invariant of `FlattenArgs`: a finished prefix and an unfinished suffix. */
  predicate FlattenProgress(h: string, args: seq<Expr>, r: seq<Expr>, i: int, recursive: bool)
  {
    0 <= i <= |r| && r[..i] + Flattened(h, r[i..], recursive) == Flattened(h, args, recursive)
  }

  /** Splicing a child of head `h` keeps the flatten loop's invariant and shrinks its suffix. */
  lemma FlattenLoopSplice(h: string, args: seq<Expr>, r: seq<Expr>, i: int, recursive: bool, r': seq<Expr>, i': int)
    requires FlattenProgress(h, args, r, i, recursive) && i < |r| && Head(r[i]) == h
    requires r' == r[..i] + Args(r[i]) + r[i + 1..]
    requires i' == i + (if !recursive then |Args(r[i])| - 1 else -1) + 1
    ensures FlattenProgress(h, args, r', i', recursive) && SizeSum(r'[i'..]) < SizeSum(r[i..])
  {
    var pre, c, rest := r[..i], r[i], r[i + 1..];
    var children := Args(c);
    assert r[i..] == [c] + rest;
    SpliceShrinks(c, children, rest);
    FlattenSpliceStep(h, pre, c, rest, recursive);
    ThreeParts(pre, children, rest);
    if recursive {
      assert r'[..i] + Flattened(h, r'[i..], true) == pre + Flattened(h, children + rest, true);
    } else {
      var j := i + |children|;
      assert r'[..j] + Flattened(h, r'[j..], false) == (pre + children) + Flattened(h, rest, false);
    }
  }

  /** The slices of a sequence made of three parts. */
  lemma ThreeParts(pre: seq<Expr>, mid: seq<Expr>, rest: seq<Expr>)
    ensures (pre + mid + rest)[..|pre|] == pre
    ensures (pre + mid + rest)[|pre|..] == mid + rest
    ensures (pre + mid + rest)[..|pre| + |mid|] == pre + mid
    ensures (pre + mid + rest)[|pre| + |mid|..] == rest
  {
  }

  lemma SpliceShrinks(c: Expr, children: seq<Expr>, rest: seq<Expr>)
    requires children == Args(c)
    ensures SizeSum(rest) < SizeSum([c] + rest)
    ensures SizeSum(children + rest) < SizeSum([c] + rest)
  {
    SizeSumConcat([c], rest);
    SizeSumConcat(children, rest);
    assert SizeSum([c]) == Size(c);
  }

  /** Passing a child of another head keeps the flatten loop's invariant and shrinks its suffix. */
  lemma FlattenLoopKeep(h: string, args: seq<Expr>, r: seq<Expr>, i: int, recursive: bool)
    requires FlattenProgress(h, args, r, i, recursive) && i < |r| && Head(r[i]) != h
    ensures FlattenProgress(h, args, r, i + 1, recursive) && SizeSum(r[i + 1..]) < SizeSum(r[i..])
  {
    var pre, c, rest := r[..i], r[i], r[i + 1..];
    assert r[i..] == [c] + rest;
    FlattenKeepStep(h, pre, c, rest, recursive);
    assert r[..i + 1] == pre + [c];
    assert r[i + 1..] == rest;
    SizeSumConcat([c], rest);
  }

  /**
   * The flatten loop (expr.py:32-38) on a list of children: a child with head
   * `h` is spliced in place; the index then skips the spliced children, or
   * stays to re-examine them when `recursive`.
   */
  method FlattenArgs(h: string, args: seq<Expr>, recursive: bool) returns (r: seq<Expr>)
    ensures r == Flattened(h, args, recursive)
  {
    r := args;
    var i := 0;
    assert r[i..] == args;
    while i < |r|
      invariant FlattenProgress(h, args, r, i, recursive)
      decreases SizeSum(r[i..])
    {
      if Head(r[i]) == h {
        var argLen := |Args(r[i])|;
        var spliced := r[..i] + Args(r[i]) + r[i + 1..];
        var next := i + (if !recursive then argLen - 1 else -1) + 1;
        FlattenLoopSplice(h, args, r, i, recursive, spliced, next);
        r, i := spliced, next;
      } else {
        FlattenLoopKeep(h, args, r, i, recursive);
        i := i + 1;
      }
    }
    assert r[i..] == [];
  }

  /** `e` with its children replaced; an atom has none to replace. */
  function WithArgs(e: Expr, args: seq<Expr>): (r: Expr)
    ensures e.Compound? ==> r == Compound(e.head, args, e.attr)
    ensures !e.Compound? ==> r == e
  {
    if e.Compound? then Compound(e.head, args, e.attr) else e
  }

  /**
   * `e.flatten(force, recursive=recursive)` (expr.py:27-40): refuses a
   * non-associative expression unless forced, then flattens the children.
   */
  method Flatten(e: Expr, force: bool, recursive: bool) returns (r: Result<Expr>)
    ensures r.Err? <==> Associative !in Attrs(e) && !force
    ensures r.Err? ==> r.error == NotAssociative
    ensures r.Ok? ==> Head(r.value) == Head(e) && Attrs(r.value) == Attrs(e)
    ensures r.Ok? ==> Args(r.value) == Flattened(Head(e), Args(e), recursive)
    ensures r.Ok? && recursive ==> forall i :: 0 <= i < |Args(r.value)| ==> Head(Args(r.value)[i]) != Head(e)
  {
    if !(Associative in Attrs(e) || force) {
      return Err(NotAssociative);
    }
    var args := FlattenArgs(Head(e), Args(e), recursive);
    FlattenDeepFlat(Head(e), Args(e));
    return Ok(WithArgs(e, args));
  }

  // ---------------------------------------------------------------------------
  // Construction (expr.py:8-25)

  /** `[atomize(a) for a in args]`, raising at the first value that cannot be promoted. */
  function AtomizeAll(args: seq<Primitive>): (r: Result<seq<Expr>>)
    ensures r.Ok? <==> forall i :: 0 <= i < |args| ==> !args[i].Other?
    ensures r.Ok? ==> |r.value| == |args|
    ensures r.Ok? ==> forall i :: 0 <= i < |args| ==> Atomize(args[i]) == Ok(r.value[i])
    ensures r.Err? ==> r.error == UnsupportedPrimitive
  {
    if |args| == 0 then
      Ok([])
    else
      var first := Atomize(args[0]);
      var rest := AtomizeAll(args[1..]);
      assert forall i :: 1 <= i < |args| ==> args[i] == args[1..][i - 1];
      if first.Err? then Err(first.error)
      else if rest.Err? then Err(rest.error)
      else Ok([first.value] + rest.value)
  }

  /** The attribute set of a new expression: the head's registered attributes and the given ones. */
  function ConstructAttrs(head: string, attr: set<Attribute>): (attrs: set<Attribute>)
    ensures forall a :: a in attrs <==> a in HeadAttributes(head) || a in attr
  {
    AttrSet(HeadAttributes(head)) + attr
  }

  /** Whether construction flattens: associative and not marked `NoFlatten`. */
  predicate FlattensOnCreate(attrs: set<Attribute>)
  {
    Associative in attrs && NoFlatten !in attrs
  }

  /** The children of a new expression before ordering: flattened once when the head flattens. */
  function Gathered(head: string, attrs: set<Attribute>, children: seq<Expr>): seq<Expr>
  {
    if FlattensOnCreate(attrs) then FlattenOnce(head, children) else children
  }

  /**
   * `Expr(head, args, attr)`: promote every argument, check a fixed arity,
   * flatten an associative head, and order the children of a commutative head
   * by key. The given attributes are a list in Python; only their membership
   * matters, so they are a set here.
   */
  function Construct(key: Expr -> int, head: string, args: seq<Primitive>, attr: set<Attribute>): (r: Result<Expr>)
    ensures r.Ok? <==>
      && (forall i :: 0 <= i < |args| ==> !args[i].Other?)
      && (FixedArgNum in ConstructAttrs(head, attr) ==> head in HeadArgNumber && HeadArgNumber[head] == |args|)
    ensures r.Err? && (exists i :: 0 <= i < |args| && args[i].Other?) ==> r.error == UnsupportedPrimitive
    ensures r.Err? && (forall i :: 0 <= i < |args| ==> !args[i].Other?) ==>
      r.error == (if head in HeadArgNumber then ArityMismatch else MissingArity)
    ensures r.Ok? ==> r.value.Compound? && r.value.head == head && r.value.attr == ConstructAttrs(head, attr)
    ensures r.Ok? ==>
      var children := AtomizeAll(args).value;
      && multiset(r.value.args) == multiset(Gathered(head, r.value.attr, children))
      && (Commutative in r.value.attr ==> SortedBy(key, r.value.args))
      && (Commutative !in r.value.attr ==> r.value.args == Gathered(head, r.value.attr, children))
  {
    var attrs := ConstructAttrs(head, attr);
    var children := AtomizeAll(args);
    if children.Err? then
      Err(children.error)
    else if FixedArgNum in attrs && head !in HeadArgNumber then
      Err(MissingArity)
    else if FixedArgNum in attrs && |children.value| != HeadArgNumber[head] then
      Err(ArityMismatch)
    else
      var gathered := Gathered(head, attrs, children.value);
      Ok(Compound(head, if Commutative in attrs then SortByKey(key, gathered) else gathered, attrs))
  }

  /** `Expr.__init__`, with its promotion loop, in-place flatten and sort. */
  method Create(key: Expr -> int, head: string, args: seq<Primitive>, attr: set<Attribute>) returns (r: Result<Expr>)
    ensures r == Construct(key, head, args, attr)
  {
    var attrs := AttrSet(HeadAttributes(head)) + attr;
    var children: seq<Expr> := [];
    for i := 0 to |args|
      invariant |children| == i
      invariant forall j :: 0 <= j < i ==> Atomize(args[j]) == Ok(children[j])
    {
      var a := Atomize(args[i]);
      if a.Err? {
        return Err(a.error);
      }
      children := children + [a.value];
    }
    assert children == AtomizeAll(args).value;
    if FixedArgNum in attrs {
      if head !in HeadArgNumber {
        return Err(MissingArity);
      }
      if |children| != HeadArgNumber[head] {
        return Err(ArityMismatch);
      }
    }
    if Associative in attrs && NoFlatten !in attrs {
      children := FlattenArgs(head, children, false);
    }
    if Commutative in attrs {
      children := SortByKey(key, children);
    }
    return Ok(Compound(head, children, attrs));
  }

  /** The expressions as arguments to a constructor. */
  function Nodes(s: seq<Expr>): (p: seq<Primitive>)
    ensures |p| == |s| && forall i :: 0 <= i < |s| ==> p[i] == Node(s[i])
  {
    seq(|s|, i requires 0 <= i < |s| => Node(s[i]))
  }

  /** Promoting expressions leaves them as they are. */
  lemma AtomizeNodes(s: seq<Expr>)
    ensures AtomizeAll(Nodes(s)) == Ok(s)
  {
    var r := AtomizeAll(Nodes(s));
    assert r.Ok?;
    forall i | 0 <= i < |s|
      ensures r.value[i] == s[i]
    {
      assert Atomize(Nodes(s)[i]) == Ok(r.value[i]);
    }
    assert r.value == s;
  }

  /**
   * Construction of a flattening head over children whose same-head children
   * are already flat leaves no child with that head.
   */
  lemma ConstructLeavesNoSameHeadChild(key: Expr -> int, head: string, s: seq<Expr>, attr: set<Attribute>)
    requires FlattensOnCreate(ConstructAttrs(head, attr))
    requires Construct(key, head, Nodes(s), attr).Ok?
    requires FlatBelow(head, s)
    ensures var e := Construct(key, head, Nodes(s), attr).value;
      forall i :: 0 <= i < |e.args| ==> Head(e.args[i]) != head
  {
    var e := Construct(key, head, Nodes(s), attr).value;
    AtomizeNodes(s);
    FlattenOnceComplete(head, s);
    var g := FlattenOnce(head, s);
    forall i | 0 <= i < |e.args|
      ensures Head(e.args[i]) != head
    {
      assert e.args[i] in multiset(g);
    }
  }

  /** Gathering two children yields the same elements in either order. */
  lemma GatheredPairSwap(head: string, attrs: set<Attribute>, p: Expr, q: Expr)
    ensures multiset(Gathered(head, attrs, [p, q])) == multiset(Gathered(head, attrs, [q, p]))
  {
    if FlattensOnCreate(attrs) {
      assert [p] + [q] == [p, q] && [q] + [p] == [q, p];
      FlattenOnceAppend(head, [p], [q]);
      FlattenOnceAppend(head, [q], [p]);
      FlattenSingle(head, p);
      FlattenSingle(head, q);
    }
  }

  /**
   * Commutative construction does not depend on the order of two children
   * whose gathered children have distinct keys: `Plus(a, b)` is `Plus(b, a)`.
   */
  lemma ConstructPairOrderless(key: Expr -> int, head: string, p: Expr, q: Expr, attr: set<Attribute>)
    requires Commutative in ConstructAttrs(head, attr)
    requires KeyInjective(key, Gathered(head, ConstructAttrs(head, attr), [p, q]))
    ensures Construct(key, head, [Node(p), Node(q)], attr) == Construct(key, head, [Node(q), Node(p)], attr)
  {
    var attrs := ConstructAttrs(head, attr);
    PairAtomized(p, q);
    PairAtomized(q, p);
    if !(FixedArgNum in attrs && (head !in HeadArgNumber || HeadArgNumber[head] != 2)) {
      GatheredPairSwap(head, attrs, p, q);
      SortByKeyOrderless(key, Gathered(head, attrs, [p, q]), Gathered(head, attrs, [q, p]));
      ConstructUnfold(key, head, [Node(p), Node(q)], attr, [p, q]);
      ConstructUnfold(key, head, [Node(q), Node(p)], attr, [q, p]);
    }
  }

  /** Promoting two expressions leaves them as they are. */
  lemma PairAtomized(x: Expr, y: Expr)
    ensures AtomizeAll([Node(x), Node(y)]) == Ok([x, y])
  {
    assert [Node(x), Node(y)] == Nodes([x, y]);
    AtomizeNodes([x, y]);
  }

  /** Construction from promoted children that meet the arity: gathered, then ordered if commutative. */
  lemma ConstructUnfold(key: Expr -> int, head: string, args: seq<Primitive>, attr: set<Attribute>, children: seq<Expr>)
    requires AtomizeAll(args) == Ok(children)
    requires FixedArgNum in ConstructAttrs(head, attr) ==> head in HeadArgNumber && HeadArgNumber[head] == |children|
    ensures var attrs := ConstructAttrs(head, attr); var gathered := Gathered(head, attrs, children);
      Construct(key, head, args, attr) ==
      Ok(Compound(head, if Commutative in attrs then SortByKey(key, gathered) else gathered, attrs))
  {
  }
}

=== FILE: heads.dfy ===
/**
 * Head metadata of the kernel: the attribute tags and the two static tables
 * keyed by head name (head.py).
 */
module Heads {

  /** The five attribute tags of the `Attribute` enum (head.py:9-14). */
  datatype Attribute = Commutative | Associative | FixedArgNum | NoFlatten | Unevaluated
  {
    /** The enum value declared for each tag. */
    function Value(): (v: nat)
      ensures v < 5
    {
      match this
      case Commutative => 0
      case Associative => 1
      case FixedArgNum => 2
      case NoFlatten => 3
      case Unevaluated => 4
    }
  }

  /** No two tags share an enum value. */
  lemma AttributeValuesDistinct(a: Attribute, b: Attribute)
    ensures a.Value() == b.Value() <==> a == b
  {
  }

  /**
   * `HeadAttributes[h]`: the attribute list registered for head `h`. The table
   * is a `defaultdict(list)`, so every unregistered head reads as the empty list.
   */
  function HeadAttributes(h: string): (attrs: seq<Attribute>)
    ensures attrs != [] <==> h == "Plus" || h == "Mult" || h == "Power"
    ensures Commutative in attrs <==> h == "Plus" || h == "Mult"
    ensures Associative in attrs <==> h == "Plus" || h == "Mult"
    ensures FixedArgNum in attrs <==> h == "Power"
    ensures NoFlatten !in attrs && Unevaluated !in attrs
  {
    if h == "Plus" || h == "Mult" then [Commutative, Associative]
    else if h == "Power" then [FixedArgNum]
    else []
  }

  /** `HeadArgNumber`: the registered arity of the heads that have one. */
  const HeadArgNumber: map<string, nat> := map["Power" := 2]

  /** `set(list)`: the attributes named in a list, order and repetition forgotten. */
  function AttrSet(attrs: seq<Attribute>): (s: set<Attribute>)
    ensures forall a :: a in s <==> a in attrs
  {
    set a | a in attrs
  }

  /**
   * The two tables agree: a head registered with FIXED_ARG_NUM has a registered
   * arity, and only such heads do, so construction of a registered head never
   * looks up a missing arity.
   */
  lemma RegisteredArityConsistent(h: string)
    ensures h in HeadArgNumber <==> FixedArgNum in HeadAttributes(h)
    ensures h in HeadArgNumber ==> h == "Power" && HeadArgNumber[h] == 2
  {
  }
}

=== FILE: num_objects.dfy ===
/**
 * `Integer` and `Rational` as mutable Python objects. `Rational.__init__`
 * (nums.py:78-88) divides the `n` fields of the `Integer` objects it is given,
 * and three callers hand it objects that belong to somebody else; this module
 * models those call sites as written, so that the mutation is visible.
 */
module NumObjects {
  import opened Terms
  import opened Nums

  /** An `Integer` object. */
  class IntegerObj {
    var n: int

    constructor (n: int)
      ensures this.n == n
    {
      this.n := n;
    }
  }

  /** A `Rational` object; its parts are shared with whoever passed them in. */
  class RationalObj {
    const num: IntegerObj
    const den: IntegerObj

    constructor (num: IntegerObj, den: IntegerObj)
      ensures this.num == num && this.den == den
    {
      this.num := num;
      this.den := den;
    }
  }

  /**
   * `Rational(num, den)` on two `Integer` objects, as written: when the gcd is
   * not 1 both objects are divided in place, before the denominator check.
   * Its outcome is the value-level constructor's.
   */
  method InitRational(num: IntegerObj, den: IntegerObj) returns (r: Result<RationalObj>)
    modifies num, den
    ensures num != den ==>
      var m := MakeRational(old(num.n), old(den.n));
      && (r.Ok? <==> m.Ok?)
      && (r.Err? ==> r.error == m.error)
      && (r.Ok? ==> r.value.num == num && r.value.den == den && m.value == Rational(num.n, den.n))
    ensures num != den ==>
      var g := Gcd(Abs(old(num.n)), Abs(old(den.n)));
      && (g <= 1 ==> num.n == old(num.n) && den.n == old(den.n))
      && (g > 1 ==> num.n == old(num.n) / g && den.n == old(den.n) / g)
    ensures num == den ==> (r.Ok? <==> old(num.n) == 1)
    ensures num == den && r.Err? ==>
      r.error == if old(num.n) == 0 then ZeroDivision else NonPositiveDenominator
    ensures num == den && r.Ok? ==> r.value.num == num && r.value.den == num && num.n == 1
    ensures num == den ==>
      && (Abs(old(num.n)) <= 1 ==> num.n == old(num.n))
      && (Abs(old(num.n)) > 1 ==> num.n == if old(num.n) > 0 then 0 else -1)
  {
    var g := Gcd(Abs(num.n), Abs(den.n));
    if num == den {
      GcdSelf(Abs(num.n));
      if Abs(num.n) > 1 {
        DivideTwiceBySelf(num.n);
      }
    }
    if g != 1 {
      if g == 0 {
        return Err(ZeroDivision);
      }
      num.n := num.n / g;
      den.n := den.n / g;
    }
    if den.n > 0 {
      var q := new RationalObj(num, den);
      return Ok(q);
    }
    return Err(NonPositiveDenominator);
  }

  /**
   * Dividing a number by its own magnitude twice, with floor division, as the
   * constructor does when it is handed one object twice: 1 becomes 0, and -1 stays.
   */
  lemma DivideTwiceBySelf(n: int)
    requires Abs(n) > 1
    ensures n / Abs(n) == if n > 0 then 1 else -1
    ensures (n / Abs(n)) / Abs(n) == if n > 0 then 0 else -1
  {
    var a: int := Abs(n);
    if n > 0 {
      assert n == 1 * a + 0;
      assert 1 == 0 * a + 1;
    } else {
      assert n == -1 * a + 0;
      assert -1 == -1 * a + (a - 1);
    }
  }

  /** The value of a finished constructor call, as an `Arith` outcome. */
  function Value(r: Result<RationalObj>): (a: Arith)
    reads if r.Ok? then {r.value.num, r.value.den} else {}
    ensures r.Ok? <==> a.Number?
    ensures r.Ok? ==> a.value == Rational(r.value.num.n, r.value.den.n)
    ensures r.Err? ==> a == Raised(r.error)
  {
    if r.Ok? then Number(Rational(r.value.num.n, r.value.den.n)) else Raised(r.error)
  }

  /**
   * `Integer.__truediv__` (nums.py:46-52) on objects: the value-level result,
   * and, when the quotient is not whole, both operands left divided by their gcd.
   */
  method IntegerTrueDiv(self: IntegerObj, other: IntegerObj) returns (r: Arith)
    modifies self, other
    ensures r == IntegerDiv(old(self.n), Integer(old(other.n)))
    ensures old(other.n) == 0 || old(self.n) % old(other.n) == 0 ==>
      self.n == old(self.n) && other.n == old(other.n)
    ensures old(other.n) != 0 && old(self.n) % old(other.n) != 0 ==>
      var g := Gcd(Abs(old(self.n)), Abs(old(other.n)));
      && (g > 1 ==> self.n == old(self.n) / g && other.n == old(other.n) / g)
      && (g <= 1 ==> self.n == old(self.n) && other.n == old(other.n))
  {
    TrueDivCases(self.n, other.n);
    if other.n == 0 {
      return Raised(ZeroDivision);
    }
    if self.n % other.n == 0 {
      return Number(Integer(self.n / other.n));
    }
    var q := InitRational(self, other);
    r := Value(q);
  }

  /** The three outcomes of `Integer.__truediv__` on values; an integer always divides itself. */
  lemma TrueDivCases(n: int, d: int)
    ensures d == 0 ==> IntegerDiv(n, Integer(d)) == Raised(ZeroDivision)
    ensures d != 0 && n % d == 0 ==> IntegerDiv(n, Integer(d)) == Number(Integer(n / d))
    ensures d != 0 && n % d != 0 ==> IntegerDiv(n, Integer(d)) == Raise(MakeRational(n, d))
    ensures d != 0 ==> d % d == 0
  {
  }

  /**
   * `Rational.__mul__` by an `Integer` (nums.py:122-123): the receiver's own
   * denominator object is passed to the constructor, which may divide it.
   */
  method RationalMulInteger(self: RationalObj, other: IntegerObj) returns (r: Arith)
    requires self.den.n > 0
    modifies self.den
    ensures r == RationalMul(old(self.num.n), old(self.den.n), Integer(old(other.n)))
    ensures var g := Gcd(Abs(old(self.num.n) * old(other.n)), old(self.den.n));
      self.den.n == if g > 1 then old(self.den.n) / g else old(self.den.n)
  {
    var p := new IntegerObj(self.num.n * other.n);
    var q := InitRational(p, self.den);
    r := Value(q);
  }

  /**
   * `Rational.__truediv__` by an `Integer` (nums.py:132-133): the receiver's
   * own numerator object is passed to the constructor, which may divide it.
   */
  method RationalDivInteger(self: RationalObj, other: IntegerObj) returns (r: Arith)
    requires self.den.n > 0
    modifies self.num
    ensures r == RationalDiv(old(self.num.n), old(self.den.n), Integer(old(other.n)))
    ensures var g := Gcd(Abs(old(self.num.n)), Abs(old(self.den.n) * old(other.n)));
      self.num.n == if g > 1 then old(self.num.n) / g else old(self.num.n)
  {
    var d := new IntegerObj(self.den.n * other.n);
    var q := InitRational(self.num, d);
    r := Value(q);
  }

  /**
   * `x = Integer(5); Rational(x, x)` raises, because the one object is divided
   * twice and ends at 0, although `Rational(Integer(5), Integer(5))` is `1/1`.
   */
  method SharedPartsRational() returns (shared: Result<RationalObj>, separate: Result<Expr>, after: int)
    ensures shared == Err(NonPositiveDenominator)
    ensures separate == Ok(Rational(1, 1))
    ensures after == 0
  {
    var x := new IntegerObj(5);
    shared := InitRational(x, x);
    after := x.n;
    separate := MakeRational(5, 5);
    assert Gcd(5, 5) == 5;
  }

  /** `Integer(4) / Integer(6)` is `2/3`, and leaves the dividend reading 2. */
  method DivisionMutatesOperands() returns (quotient: Arith, before: int, after: int)
    ensures quotient == Number(Rational(2, 3))
    ensures before == 4 && after == 2
  {
    var a := new IntegerObj(4);
    var b := new IntegerObj(6);
    before := a.n;
    assert Gcd(4, 6) == 2;
    quotient := IntegerTrueDiv(a, b);
    after := a.n;
  }

  /** `Rational(1, 2) * Integer(2)` is `1/1`, and leaves the receiver reading `1/1`. */
  method ScalingMutatesReceiver() returns (product: Arith, before: int, after: int)
    ensures product == Number(Rational(1, 1))
    ensures before == 2 && after == 1
  {
    var one := new IntegerObj(1);
    var two := new IntegerObj(2);
    var half := new RationalObj(one, two);
    var factor := new IntegerObj(2);
    before := half.den.n;
    assert Gcd(2, 2) == 2;
    product := RationalMulInteger(half, factor);
    after := half.den.n;
  }

  /** `Rational(2, 3) / Integer(2)` is `1/3`, and leaves the receiver reading `1/3`. */
  method DividingMutatesReceiver() returns (quotient: Arith, before: int, after: int)
    ensures quotient == Number(Rational(1, 3))
    ensures before == 2 && after == 1
  {
    var two := new IntegerObj(2);
    var three := new IntegerObj(3);
    var twoThirds := new RationalObj(two, three);
    var divisor := new IntegerObj(2);
    before := twoThirds.num.n;
    assert Gcd(2, 6) == 2;
    quotient := RationalDivInteger(twoThirds, divisor);
    after := twoThirds.num.n;
  }
}

=== FILE: nums.dfy ===
/**
 * The exact numeric atoms `Integer` and `Rational` (nums.py): the reducing
 * `Rational` constructor, the arithmetic and comparison methods of both
 * classes, and their agreement with exact rational arithmetic.
 */
module Nums {
  import opened Terms

  // ---------------------------------------------------------------------------
  // Integer facts used by the reduction proofs

  function Abs(x: int): (a: nat)
    ensures a == x || a == -x
  {
    if x < 0 then -x else x
  }

  /** `math.gcd` on magnitudes, by Euclid's algorithm; `Gcd(0, 0) == 0`. */
  function Gcd(a: nat, b: nat): nat
    decreases b
  {
    if b == 0 then a else Gcd(b, a % b)
  }

  /** A number's gcd with itself is the number. */
  lemma GcdSelf(a: nat)
    ensures Gcd(a, a) == a
  {
    if a > 0 {
      assert a % a == 0;
    }
  }

  /** `b ** e` for a non-negative exponent (`0 ** 0 == 1`). */
  function Pow(b: int, e: nat): int
  {
    if e == 0 then 1 else b * Pow(b, e - 1)
  }

  lemma MulAtLeast(a: int, y: int)
    requires a >= 1 && y > 0
    ensures a * y >= y
  {
    assert a * y == (a - 1) * y + y;
  }

  /** Euclidean division is determined by quotient and remainder. */
  lemma DivModUnique(x: int, y: int, q: int, r: int)
    requires y > 0 && 0 <= r < y && x == q * y + r
    ensures x / y == q && x % y == r
  {
    var q0, r0 := x / y, x % y;
    assert x == q0 * y + r0;
    if q > q0 {
      MulAtLeast(q - q0, y);
      assert false;
    }
    if q < q0 {
      MulAtLeast(q0 - q, y);
      assert false;
    }
  }

  /** `Gcd(a, b)` divides both arguments: it returns the two cofactors. */
  lemma {:induction false} GcdDivides(a: nat, b: nat) returns (p: nat, q: nat)
    ensures a == Gcd(a, b) * p && b == Gcd(a, b) * q
    decreases b
  {
    if b == 0 {
      p, q := 1, 0;
    } else {
      var p1, q1 := GcdDivides(b, a % b);
      var g := Gcd(a, b);
      var k := a / b;
      assert a == k * b + a % b;
      CofactorStep(a, b, g, k, p1, q1);
      p, q := k * p1 + q1, p1;
    }
  }

  /** One step of Euclid's algorithm: cofactors of `(b, a % b)` give cofactors of `a`. */
  lemma CofactorStep(a: nat, b: nat, g: nat, k: nat, p1: nat, q1: nat)
    requires a == k * b + (a - k * b) && b == g * p1 && a - k * b == g * q1
    ensures a == g * (k * p1 + q1)
  {
    MulAssoc(k, g, p1);
    MulAssoc(g, k, p1);
  }

  /** Every common divisor of `a` and `b` divides `Gcd(a, b)`. */
  lemma {:induction false} GcdGreatest(a: nat, b: nat, d: int, x: int, y: int) returns (z: int)
    requires a == d * x && b == d * y
    ensures Gcd(a, b) == d * z
    decreases b
  {
    if b == 0 {
      z := x;
    } else {
      var k := a / b;
      assert a % b == a - k * b;
      assert k * b == d * (k * y);
      z := GcdGreatest(b, a % b, d, y, x - k * y);
    }
  }

  /** `Gcd(1, p) == 1`. */
  lemma GcdOne(p: nat)
    ensures Gcd(1, p) == 1
  {
    if p > 1 {
      assert 1 % p == 1;
      assert Gcd(1, p) == Gcd(p, 1) == Gcd(1, 0);
    }
  }

  /** Only `Gcd(0, 0)` is zero. */
  lemma GcdZero(a: nat, b: nat)
    ensures Gcd(a, b) == 0 <==> a == 0 && b == 0
  {
    var p, q := GcdDivides(a, b);
  }

  lemma MulAssoc(x: int, y: int, z: int)
    ensures (x * y) * z == x * (y * z)
  {
  }

  /** A product of naturals equal to 1 has both factors 1. */
  lemma UnitProduct(h: nat, z: int)
    requires h * z == 1
    ensures h == 1
  {
    if h > 1 {
      if z >= 1 {
        MulAtLeast(z, h);
      } else if z <= -1 {
        MulAtLeast(-z, h);
      }
      assert false;
    }
  }

  /** Cancelling a positive factor. */
  lemma Cancel(g: int, x: int, y: int)
    requires g > 0 && g * x == g * y
    ensures x == y
  {
    if x < y {
      MulAtLeast(y - x, g);
      assert false;
    }
    if x > y {
      MulAtLeast(x - y, g);
      assert false;
    }
  }

  /** The parts of a pair divided by its gcd are coprime. */
  lemma CoprimeCofactors(a: nat, b: nat, g: nat, p: nat, q: nat)
    requires b > 0 && g == Gcd(a, b) && a == g * p && b == g * q
    ensures Gcd(p, q) == 1
  {
    GcdZero(a, b);
    var h := Gcd(p, q);
    var p1, q1 := GcdDivides(p, q);
    MulAssoc(g, h, p1);
    MulAssoc(g, h, q1);
    var z := GcdGreatest(a, b, g * h, p1, q1);
    MulAssoc(g, h, z);
    Cancel(g, 1, h * z);
    UnitProduct(h, z);
  }

  /**
   * Dividing a fraction with a non-zero denominator by the gcd of its parts
   * leaves coprime parts of the same signs.
   */
  lemma Reduce(num: int, den: int)
    requires den != 0
    ensures Gcd(Abs(num), Abs(den)) > 0
    ensures var g := Gcd(Abs(num), Abs(den));
      && (num / g) * g == num && (den / g) * g == den
      && (den > 0 <==> den / g > 0)
      && Gcd(Abs(num / g), Abs(den / g)) == 1
  {
    var g := Gcd(Abs(num), Abs(den));
    GcdZero(Abs(num), Abs(den));
    var a, b := GcdDivides(Abs(num), Abs(den));
    CoprimeCofactors(Abs(num), Abs(den), g, a, b);
    SignedCofactor(num, g, a);
    SignedCofactor(den, g, b);
  }

  /** Dividing a multiple of a positive `g` by `g` gives the signed cofactor. */
  lemma SignedCofactor(x: int, g: nat, a: nat)
    requires g > 0 && Abs(x) == g * a
    ensures (x / g) * g == x && Abs(x / g) == a
    ensures x > 0 <==> x / g > 0
  {
    if x < 0 {
      var p := -(a as int);
      assert x == p * g;
      DivModUnique(x, g, p, 0);
    } else {
      assert x == a * g;
      DivModUnique(x, g, a, 0);
      if a > 0 {
        MulAtLeast(a, g);
      }
    }
  }

  // ---------------------------------------------------------------------------
  // Values

  /** A `Rational` as the constructor leaves it: positive denominator, coprime parts. */
  predicate Canonical(e: Expr)
  {
    e.Rational? && e.den > 0 && Gcd(Abs(e.num), e.den) == 1
  }

  /** The numbers that have an exact rational value. */
  predicate IsExact(e: Expr)
  {
    e.Integer? || (e.Rational? && e.den != 0)
  }

  function ExactValue(e: Expr): real
    requires IsExact(e)
  {
    if e.Integer? then e.n as real else e.num as real / e.den as real
  }

  function RealPow(x: real, e: nat): real
  {
    if e == 0 then 1.0 else x * RealPow(x, e - 1)
  }

  lemma RealOfMul(a: int, b: int)
    ensures (a * b) as real == (a as real) * (b as real)
  {
  }

  /** Fractions with equal cross products have equal values. */
  lemma CrossEqual(n: int, d: int, m: int, e: int)
    requires d != 0 && e != 0 && n * e == m * d
    ensures n as real / d as real == m as real / e as real
  {
    RealOfMul(n, e);
    RealOfMul(m, d);
    var x := n as real / d as real;
    var y := m as real / e as real;
    assert x * (d as real) == n as real;
    assert y * (e as real) == m as real;
    assert x * (d as real) * (e as real) == y * (e as real) * (d as real);
  }

  lemma AddFractions(a: int, b: int, c: int, d: int)
    requires b != 0 && d != 0
    ensures ((a * d + c * b) as real) / ((b * d) as real) == a as real / b as real + c as real / d as real
  {
    RealOfMul(a, d);
    RealOfMul(c, b);
    RealOfMul(b, d);
    var x := a as real / b as real;
    var y := c as real / d as real;
    assert x * (b as real) == a as real;
    assert y * (d as real) == c as real;
    assert (x + y) * ((b as real) * (d as real)) == (a as real) * (d as real) + (c as real) * (b as real);
  }

  lemma SubFractions(a: int, b: int, c: int, d: int)
    requires b != 0 && d != 0
    ensures ((a * d - c * b) as real) / ((b * d) as real) == a as real / b as real - c as real / d as real
  {
    AddFractions(a, b, -c, d);
    assert a * d + (-c) * b == a * d - c * b;
  }

  lemma MulFractions(a: int, b: int, c: int, d: int)
    requires b != 0 && d != 0
    ensures ((a * c) as real) / ((b * d) as real) == (a as real / b as real) * (c as real / d as real)
  {
    RealOfMul(a, c);
    RealOfMul(b, d);
    var x := a as real / b as real;
    var y := c as real / d as real;
    assert x * (b as real) == a as real;
    assert y * (d as real) == c as real;
    assert (x * y) * ((b as real) * (d as real)) == (a as real) * (c as real);
  }

  lemma DivFractions(a: int, b: int, c: int, d: int)
    requires b != 0 && d != 0 && c != 0
    ensures ((a * d) as real) / ((b * c) as real) == (a as real / b as real) / (c as real / d as real)
  {
    RealOfMul(a, d);
    RealOfMul(b, c);
    var x := a as real / b as real;
    var y := c as real / d as real;
    assert x * (b as real) == a as real;
    assert y * (d as real) == c as real;
    assert y != 0.0;
    assert (x / y) * y == x;
    assert (x / y) * ((b as real) * (c as real)) == (a as real) * (d as real);
  }

  /** With positive denominators, cross-multiplication orders fractions by value. */
  lemma LessFractions(a: int, b: int, c: int, d: int)
    requires b > 0 && d > 0
    ensures a * d < c * b <==> a as real / b as real < c as real / d as real
  {
    RealOfMul(a, d);
    RealOfMul(c, b);
    var x := a as real / b as real;
    var y := c as real / d as real;
    assert x * (b as real) == a as real;
    assert y * (d as real) == c as real;
    assert (a * d) as real == x * ((b as real) * (d as real));
    assert (c * b) as real == y * ((b as real) * (d as real));
  }

  lemma {:induction false} PowFractions(a: int, b: int, e: nat)
    requires b != 0
    ensures Pow(b, e) != 0
    ensures Pow(a, e) as real / Pow(b, e) as real == RealPow(a as real / b as real, e)
  {
    if e > 0 {
      PowFractions(a, b, e - 1);
      MulFractions(a, b, Pow(a, e - 1), Pow(b, e - 1));
    }
  }

  /** A power is positive exactly for a zero exponent, a positive base, or a non-zero base and an even exponent. */
  lemma {:induction false} PowPositive(b: int, e: nat)
    ensures Pow(b, e) > 0 <==> e == 0 || b > 0 || (b < 0 && e % 2 == 0)
    ensures Pow(b, e) < 0 <==> b < 0 && e % 2 == 1
  {
    if e > 0 {
      PowPositive(b, e - 1);
      if b > 0 {
        assert Pow(b, e) == b * Pow(b, e - 1);
      }
    }
  }

  // ---------------------------------------------------------------------------
  // Construction

  /**
   * `Rational(num, den)` (nums.py:78-88): divide both parts by their gcd when it
   * is not 1, then assert that the denominator is positive. There is no sign
   * normalisation, so a negative denominator raises; so does a zero one
   * (`0/0` by dividing by a zero gcd).
   */
  function MakeRational(num: int, den: int): (r: Result<Expr>)
    ensures r.Ok? <==> den > 0
    ensures num == 0 && den == 0 ==> r == Err(ZeroDivision)
    ensures r.Err? && (num != 0 || den != 0) ==> r == Err(NonPositiveDenominator)
    ensures r.Ok? ==> Canonical(r.value) && r.value.num * den == num * r.value.den
    ensures r.Ok? && num == 0 ==> r.value == Rational(0, 1)
  {
    var g := Gcd(Abs(num), Abs(den));
    if g == 0 then
      GcdZero(Abs(num), Abs(den));
      Err(ZeroDivision)
    else
      var n := if g != 1 then num / g else num;
      var d := if g != 1 then den / g else den;
      ReducedParts(num, den, g, n, d);
      if d > 0 then Ok(Rational(n, d)) else Err(NonPositiveDenominator)
  }

  /** What the constructor's reduction step computes. */
  lemma ReducedParts(num: int, den: int, g: nat, n: int, d: int)
    requires g == Gcd(Abs(num), Abs(den)) && g > 0
    requires n == (if g != 1 then num / g else num) && d == (if g != 1 then den / g else den)
    ensures d > 0 <==> den > 0
    ensures d > 0 ==> Gcd(Abs(n), d) == 1 && n * den == num * d
    ensures d > 0 && num == 0 ==> n == 0 && d == 1
  {
    if den == 0 {
      if g != 1 {
        DivModUnique(0, g, 0, 0);
      }
    } else {
      Reduce(num, den);
      if g != 1 {
        CrossOfQuotients(num, den, g, n, d);
      }
      if num == 0 && den > 0 {
        ZeroOverDen(den);
      }
    }
  }

  lemma CrossOfQuotients(num: int, den: int, g: int, n: int, d: int)
    requires n * g == num && d * g == den
    ensures n * den == num * d
  {
    MulAssoc(n, d, g);
    MulAssoc(n, g, d);
  }

  lemma ZeroOverDen(den: nat)
    requires den > 0
    ensures Gcd(0, den) == den && den / den == 1 && 0 / den == 0
  {
    assert Gcd(0, den) == Gcd(den, 0) == den;
    DivModUnique(den, den, 1, 0);
    DivModUnique(0, den, 0, 0);
  }

  /** The constructor keeps the value of a fraction with a positive denominator. */
  lemma ConstructsValue(n: int, d: int)
    requires d > 0
    ensures MakeRational(n, d).Ok? && Canonical(MakeRational(n, d).value)
    ensures ExactValue(MakeRational(n, d).value) == n as real / d as real
  {
    var v := MakeRational(n, d).value;
    CrossEqual(v.num, v.den, n, d);
  }

  lemma PositiveProduct(x: int, y: int)
    requires x > 0 && y > 0
    ensures x * y > 0
  {
    MulAtLeast(x, y);
  }

  /** `Rational(a * d + c * b, b * d)` is the sum of the two fractions. */
  lemma AddValue(a: int, b: int, c: int, d: int)
    requires b > 0 && d > 0
    ensures var r := MakeRational(a * d + c * b, b * d);
      r.Ok? && Canonical(r.value) && ExactValue(r.value) == a as real / b as real + c as real / d as real
  {
    PositiveProduct(b, d);
    ConstructsValue(a * d + c * b, b * d);
    AddFractions(a, b, c, d);
  }

  /** `Rational(a * d - c * b, b * d)` is the difference of the two fractions. */
  lemma SubValue(a: int, b: int, c: int, d: int)
    requires b > 0 && d > 0
    ensures var r := MakeRational(a * d - c * b, b * d);
      r.Ok? && Canonical(r.value) && ExactValue(r.value) == a as real / b as real - c as real / d as real
  {
    PositiveProduct(b, d);
    ConstructsValue(a * d - c * b, b * d);
    SubFractions(a, b, c, d);
  }

  /** `Rational(a * c, b * d)` is the product of the two fractions. */
  lemma MulValue(a: int, b: int, c: int, d: int)
    requires b > 0 && d > 0
    ensures var r := MakeRational(a * c, b * d);
      r.Ok? && Canonical(r.value) && ExactValue(r.value) == (a as real / b as real) * (c as real / d as real)
  {
    PositiveProduct(b, d);
    ConstructsValue(a * c, b * d);
    MulFractions(a, b, c, d);
  }

  /** `Rational(a * c, b)` is the fraction `a / b` scaled by `c`. */
  lemma ScaleValue(a: int, b: int, c: int)
    requires b > 0
    ensures var r := MakeRational(a * c, b);
      r.Ok? && Canonical(r.value) && ExactValue(r.value) == (a as real / b as real) * (c as real)
  {
    MulValue(a, b, c, 1);
    assert b * 1 == b && c as real / 1 as real == c as real;
  }

  /** `Rational(a * d, b * c)` is the quotient of the two fractions when the divisor is positive. */
  lemma DivValue(a: int, b: int, c: int, d: int)
    requires b > 0 && c > 0 && d > 0
    ensures var r := MakeRational(a * d, b * c);
      r.Ok? && Canonical(r.value) && ExactValue(r.value) == (a as real / b as real) / (c as real / d as real)
  {
    PositiveProduct(b, c);
    ConstructsValue(a * d, b * c);
    DivFractions(a, b, c, d);
  }

  // ---------------------------------------------------------------------------
  // Integer methods (nums.py:13-74)

  /** The outcome of an arithmetic dunder method: a number, `NotImplemented`, or an exception. */
  datatype Arith = Number(value: Expr) | NotImplemented | Raised(error: Error)

  function Raise(r: Result<Expr>): (a: Arith)
    ensures r.Ok? <==> a.Number?
    ensures r.Ok? ==> a.value == r.value
    ensures r.Err? ==> a == Raised(r.error)
  {
    if r.Ok? then Number(r.value) else Raised(r.error)
  }

  /** `Integer.__eq__`: equal only to an `Integer` of the same value. */
  function IntegerEq(n: int, other: Expr): (b: bool)
    ensures b <==> other.Integer? && ExactValue(other) == n as real
  {
    other.Integer? && n == other.n
  }

  /** `Integer.__add__` (and `__radd__`). */
  function IntegerAdd(n: int, other: Expr): (r: Arith)
    ensures r.NotImplemented? <==> !other.Integer?
    ensures other.Integer? ==>
      r.Number? && r.value.Integer? && ExactValue(r.value) == n as real + ExactValue(other)
  {
    if other.Integer? then Number(Integer(n + other.n)) else NotImplemented
  }

  /** `Integer.__neg__`. */
  function IntegerNeg(n: int): (r: Expr)
    ensures r.Integer? && ExactValue(r) == -(n as real)
  {
    Integer(-n)
  }

  /** `Integer.__sub__`. */
  function IntegerSub(n: int, other: Expr): (r: Arith)
    ensures r.NotImplemented? <==> !other.Integer?
    ensures other.Integer? ==>
      r.Number? && r.value.Integer? && ExactValue(r.value) == n as real - ExactValue(other)
  {
    if other.Integer? then Number(Integer(n - other.n)) else NotImplemented
  }

  /** `Integer.__mul__` (and `__rmul__`). */
  function IntegerMul(n: int, other: Expr): (r: Arith)
    ensures r.NotImplemented? <==> !other.Integer?
    ensures other.Integer? ==>
      r.Number? && r.value.Integer? && ExactValue(r.value) == n as real * ExactValue(other)
  {
    if other.Integer? then
      RealOfMul(n, other.n);
      Number(Integer(n * other.n))
    else
      NotImplemented
  }

  /**
   * `Integer.__truediv__`: the exact `Integer` quotient when the divisor divides
   * the dividend, otherwise `Rational(self, other)`, which raises for a negative
   * divisor; division by zero raises from the modulo.
   */
  function IntegerDiv(n: int, other: Expr): (r: Arith)
    ensures r.NotImplemented? <==> !other.Integer?
    ensures other.Integer? && other.n == 0 ==> r == Raised(ZeroDivision)
    ensures other.Integer? && other.n != 0 && n % other.n == 0 ==>
      r.Number? && r.value.Integer? && ExactValue(r.value) == n as real / other.n as real
    ensures other.Integer? && other.n > 0 && n % other.n != 0 ==>
      r.Number? && Canonical(r.value) && ExactValue(r.value) == n as real / other.n as real
    ensures other.Integer? && other.n < 0 && n % other.n != 0 ==> r == Raised(NonPositiveDenominator)
  {
    if other.Integer? then
      if other.n == 0 then
        Raised(ZeroDivision)
      else if n % other.n == 0 then
        var q := n / other.n;
        assert q * other.n == n;
        CrossEqual(q, 1, n, other.n);
        Number(Integer(q))
      else
        var r := MakeRational(n, other.n);
        if r.Ok? then CrossEqual(r.value.num, r.value.den, n, other.n); Raise(r) else Raise(r)
    else
      NotImplemented
  }

  /**
   * `Integer.__pow__`: `Integer(n ** k)` for `k >= 0`, `Rational(1, n ** -k)`
   * for `k < 0`, which raises unless that power is positive.
   */
  function IntegerPow(n: int, other: Expr): (r: Arith)
    ensures r.NotImplemented? <==> !other.Integer?
    ensures other.Integer? && other.n >= 0 ==> r == Number(Integer(Pow(n, other.n)))
    ensures other.Integer? && other.n < 0 ==>
      (r.Number? <==> Pow(n, -other.n) > 0)
      && (r.Number? ==> r.value == Rational(1, Pow(n, -other.n)) && Canonical(r.value))
      && (r.Raised? ==> r.error == NonPositiveDenominator)
  {
    if other.Integer? then
      if other.n < 0 then
        var p := Pow(n, -other.n);
        GcdOne(Abs(p));
        Raise(MakeRational(1, p))
      else
        Number(Integer(Pow(n, other.n)))
    else
      NotImplemented
  }

  /** `Integer.__lt__` on an expression operand. */
  function IntegerLt(n: int, other: Expr): (r: Option<bool>)
    ensures r.None? <==> !other.Integer?
    ensures other.Integer? ==> r == Some(n as real < ExactValue(other))
  {
    if other.Integer? then Some(n < other.n) else None
  }

  /** `Integer.__gt__` on an expression operand. */
  function IntegerGt(n: int, other: Expr): (r: Option<bool>)
    ensures r.None? <==> !other.Integer?
    ensures other.Integer? ==> r == Some(n as real > ExactValue(other))
  {
    if other.Integer? then Some(n > other.n) else None
  }

  // ---------------------------------------------------------------------------
  // Rational methods (nums.py:90-153); the receiver is a constructed Rational

  /** `Rational.__eq__`: equal only to a `Rational`, by cross-multiplication. */
  function RationalEq(num: int, den: int, other: Expr): (b: bool)
    ensures !other.Rational? ==> !b
    ensures den != 0 && other.Rational? && other.den != 0 ==>
      (b <==> num as real / den as real == ExactValue(other))
  {
    if other.Rational? then
      if den != 0 && other.den != 0 then
        if num * other.den == den * other.num then
          CrossEqual(num, den, other.num, other.den);
          true
        else
          assert num as real / den as real != ExactValue(other) by {
            if num as real / den as real == ExactValue(other) {
              CrossEqualConverse(num, den, other.num, other.den);
            }
          }
          false
      else
        num * other.den == den * other.num
    else
      false
  }

  /** Equal values have equal cross products. */
  lemma CrossEqualConverse(n: int, d: int, m: int, e: int)
    requires d != 0 && e != 0 && n as real / d as real == m as real / e as real
    ensures n * e == m * d
  {
    RealOfMul(n, e);
    RealOfMul(m, d);
    var x := n as real / d as real;
    assert x * (d as real) == n as real;
    assert x * (e as real) == m as real;
    assert (n * e) as real == (m * d) as real;
  }

  lemma NegFraction(a: int, b: int)
    requires b != 0
    ensures (-a) as real / b as real == -(a as real / b as real)
  {
  }

  /** `Rational.__add__` (and `__radd__`). */
  function RationalAdd(num: int, den: int, other: Expr): (r: Arith)
    requires den > 0
    ensures r.NotImplemented? <==> !(other.Integer? || other.Rational?)
    ensures other.Integer? || (other.Rational? && other.den > 0) ==>
      r.Number? && Canonical(r.value)
      && ExactValue(r.value) == num as real / den as real + ExactValue(other)
  {
    if other.Rational? then
      var r := MakeRational(num * other.den + other.num * den, den * other.den);
      if other.den > 0 then
        AddValue(num, den, other.num, other.den);
        Raise(r)
      else Raise(r)
    else if other.Integer? then
      var r := MakeRational(num + other.n * den, den);
      AddValue(num, den, other.n, 1);
      Raise(r)
    else
      NotImplemented
  }

  /** `Rational.__neg__`. */
  function RationalNeg(num: int, den: int): (r: Arith)
    requires den > 0
    ensures r.Number? && Canonical(r.value)
    ensures ExactValue(r.value) == -(num as real / den as real)
  {
    var r := MakeRational(-num, den);
    var v := r.value;
    CrossEqual(v.num, v.den, -num, den);
    NegFraction(num, den);
    Number(v)
  }

  /** `Rational.__sub__`. */
  function RationalSub(num: int, den: int, other: Expr): (r: Arith)
    requires den > 0
    ensures r.NotImplemented? <==> !(other.Integer? || other.Rational?)
    ensures other.Integer? || (other.Rational? && other.den > 0) ==>
      r.Number? && Canonical(r.value)
      && ExactValue(r.value) == num as real / den as real - ExactValue(other)
  {
    if other.Rational? then
      var r := MakeRational(num * other.den - other.num * den, den * other.den);
      if other.den > 0 then
        SubValue(num, den, other.num, other.den);
        Raise(r)
      else Raise(r)
    else if other.Integer? then
      var r := MakeRational(num - other.n * den, den);
      SubValue(num, den, other.n, 1);
      Raise(r)
    else
      NotImplemented
  }

  /** `Rational.__mul__` (and `__rmul__`). */
  function RationalMul(num: int, den: int, other: Expr): (r: Arith)
    requires den > 0
    ensures r.NotImplemented? <==> !(other.Integer? || other.Rational?)
    ensures other.Integer? || (other.Rational? && other.den > 0) ==>
      r.Number? && Canonical(r.value)
      && ExactValue(r.value) == (num as real / den as real) * ExactValue(other)
  {
    if other.Rational? then
      if other.den > 0 then
        MulValue(num, den, other.num, other.den);
        Raise(MakeRational(num * other.num, den * other.den))
      else Raise(MakeRational(num * other.num, den * other.den))
    else if other.Integer? then
      ScaleValue(num, den, other.n);
      Raise(MakeRational(num * other.n, den))
    else
      NotImplemented
  }

  /**
   * `Rational.__truediv__`: the divisor's sign lands in the denominator, so a
   * negative divisor raises, and so does a zero one.
   */
  function RationalDiv(num: int, den: int, other: Expr): (r: Arith)
    requires den > 0
    ensures r.NotImplemented? <==> !(other.Integer? || other.Rational?)
    ensures (other.Integer? && other.n > 0) || (other.Rational? && other.den > 0 && other.num > 0) ==>
      r.Number? && Canonical(r.value)
      && ExactValue(r.value) == (num as real / den as real) / ExactValue(other)
    ensures (other.Integer? && other.n <= 0) || (other.Rational? && other.den > 0 && other.num <= 0) ==>
      r.Raised?
  {
    if other.Rational? then
      var r := MakeRational(num * other.den, den * other.num);
      if other.den > 0 && other.num > 0 then
        DivValue(num, den, other.num, other.den);
        Raise(r)
      else
        assert other.den > 0 && other.num <= 0 ==> den * other.num <= 0 by {
          if other.num < 0 { MulAtLeast(-other.num, den); }
        }
        Raise(r)
    else if other.Integer? then
      var r := MakeRational(num, den * other.n);
      if other.n > 0 then
        DivValue(num, den, other.n, 1);
        Raise(r)
      else
        assert den * other.n <= 0 by {
          if other.n < 0 { MulAtLeast(-other.n, den); }
        }
        Raise(r)
    else
      NotImplemented
  }

  /**
   * `Rational.__pow__`: raises both parts with `Integer.__pow__` and passes the
   * results to the constructor. For a negative exponent the numerator power
   * either raises or is a `Rational`, which `Integer(...)` refuses, so the
   * operation always raises.
   */
  function RationalPow(num: int, den: int, other: Expr): (r: Arith)
    requires den > 0
    ensures r.NotImplemented? <==> !other.Integer?
    ensures other.Integer? && other.n >= 0 ==>
      r.Number? && Canonical(r.value)
      && ExactValue(r.value) == RealPow(num as real / den as real, other.n)
    ensures other.Integer? && other.n < 0 ==> r.Raised?
  {
    if other.Integer? then
      var a := IntegerPow(num, other);
      if a.Raised? then a
      else
        var b := IntegerPow(den, other);
        if b.Raised? then b
        else if !a.value.Integer? || !b.value.Integer? then Raised(NotAnInteger)
        else
          PowPositive(den, other.n);
          var r := MakeRational(a.value.n, b.value.n);
          CrossEqual(r.value.num, r.value.den, Pow(num, other.n), Pow(den, other.n));
          PowFractions(num, den, other.n);
          Raise(r)
    else
      NotImplemented
  }

  /** `Rational.__lt__`. */
  function RationalLt(num: int, den: int, other: Expr): (r: Option<bool>)
    requires den > 0
    ensures r.None? <==> !(other.Integer? || other.Rational?)
    ensures other.Integer? || (other.Rational? && other.den > 0) ==>
      r == Some(num as real / den as real < ExactValue(other))
  {
    if other.Rational? then
      if other.den > 0 then
        LessFractions(num, den, other.num, other.den);
        Some(num * other.den < den * other.num)
      else Some(num * other.den < den * other.num)
    else if other.Integer? then
      LessFractions(num, den, other.n, 1);
      Some(num < den * other.n)
    else
      None
  }

  /** `Rational.__gt__`. */
  function RationalGt(num: int, den: int, other: Expr): (r: Option<bool>)
    requires den > 0
    ensures r.None? <==> !(other.Integer? || other.Rational?)
    ensures other.Integer? || (other.Rational? && other.den > 0) ==>
      r == Some(num as real / den as real > ExactValue(other))
  {
    if other.Rational? then
      if other.den > 0 then
        LessFractions(other.num, other.den, num, den);
        Some(num * other.den > den * other.num)
      else Some(num * other.den > den * other.num)
    else if other.Integer? then
      LessFractions(other.n, 1, num, den);
      Some(num > den * other.n)
    else
      None
  }

  // ---------------------------------------------------------------------------
  // Operators on two numbers

  /** An operand of the number operators: an `Integer`, or a `Rational` with the denominator construction guarantees. */
  predicate IsNumber(e: Expr)
  {
    e.Integer? || (e.Rational? && e.den > 0)
  }

  /**
   * Python's dispatch of a binary operator: the left operand's method, then,
   * when it returns `NotImplemented`, the right operand's reflected method if
   * its class defines one, and `TypeError` otherwise.
   */
  function Dispatch(forward: Arith, reflected: Option<Arith>): (r: Result<Expr>)
    ensures forward.Number? ==> r == Ok(forward.value)
    ensures forward.Raised? ==> r == Err(forward.error)
    ensures forward.NotImplemented? && reflected.None? ==> r == Err(UnsupportedOperand)
    ensures forward.NotImplemented? && reflected.Some? && reflected.value.Number? ==> r == Ok(reflected.value.value)
  {
    match forward
    case Number(v) => Ok(v)
    case Raised(e) => Err(e)
    case NotImplemented =>
      if reflected.None? then Err(UnsupportedOperand)
      else if reflected.value.Number? then Ok(reflected.value.value)
      else if reflected.value.Raised? then Err(reflected.value.error)
      else Err(UnsupportedOperand)
  }

  /**
   * `x + y`: both classes define `__radd__`, so `Integer + Rational` reaches
   * `Rational.__radd__` and every mix of the two adds exactly.
   */
  function Add(x: Expr, y: Expr): (r: Result<Expr>)
    requires IsNumber(x) && IsNumber(y)
    ensures r.Ok? && IsExact(r.value) && ExactValue(r.value) == ExactValue(x) + ExactValue(y)
    ensures r.value.Integer? <==> x.Integer? && y.Integer?
    ensures !r.value.Integer? ==> Canonical(r.value)
  {
    var forward := if x.Integer? then IntegerAdd(x.n, y) else RationalAdd(x.num, x.den, y);
    var reflected := if y.Integer? then IntegerAdd(y.n, x) else RationalAdd(y.num, y.den, x);
    Dispatch(forward, Some(reflected))
  }

  /** `x - y`: no class defines `__rsub__`, so `Integer - Rational` raises `TypeError`. */
  function Sub(x: Expr, y: Expr): (r: Result<Expr>)
    requires IsNumber(x) && IsNumber(y)
    ensures r.Err? <==> x.Integer? && y.Rational?
    ensures r.Err? ==> r.error == UnsupportedOperand
    ensures r.Ok? ==> IsExact(r.value) && ExactValue(r.value) == ExactValue(x) - ExactValue(y)
    ensures r.Ok? ==> (r.value.Integer? <==> x.Integer? && y.Integer?)
  {
    var forward := if x.Integer? then IntegerSub(x.n, y) else RationalSub(x.num, x.den, y);
    Dispatch(forward, None)
  }

  /** `x * y`: both classes define `__rmul__`, so every mix multiplies exactly. */
  function Mul(x: Expr, y: Expr): (r: Result<Expr>)
    requires IsNumber(x) && IsNumber(y)
    ensures r.Ok? && IsExact(r.value) && ExactValue(r.value) == ExactValue(x) * ExactValue(y)
    ensures r.value.Integer? <==> x.Integer? && y.Integer?
    ensures !r.value.Integer? ==> Canonical(r.value)
  {
    var forward := if x.Integer? then IntegerMul(x.n, y) else RationalMul(x.num, x.den, y);
    var reflected := if y.Integer? then IntegerMul(y.n, x) else RationalMul(y.num, y.den, x);
    ForwardProduct(x, y);
    if x.Integer? && y.Rational? then ReflectedProduct(x, y); Dispatch(forward, Some(reflected))
    else Dispatch(forward, Some(reflected))
  }

  /** `__mul__` of the left operand answers every mix except `Integer * Rational`. */
  lemma ForwardProduct(x: Expr, y: Expr)
    requires IsNumber(x) && IsNumber(y)
    ensures var f := if x.Integer? then IntegerMul(x.n, y) else RationalMul(x.num, x.den, y);
      (f.NotImplemented? <==> x.Integer? && y.Rational?)
      && (f.Number? ==>
            IsExact(f.value) && ExactValue(f.value) == ExactValue(x) * ExactValue(y)
            && (f.value.Integer? <==> x.Integer? && y.Integer?)
            && (!f.value.Integer? ==> Canonical(f.value)))
  {
    if x.Rational? {
      var f := RationalMul(x.num, x.den, y);
      assert ExactValue(f.value) == ExactValue(x) * ExactValue(y);
    }
  }

  /** `Integer * Rational` through `Rational.__rmul__` is the product in the written order. */
  lemma ReflectedProduct(x: Expr, y: Expr)
    requires x.Integer? && y.Rational? && y.den > 0
    ensures var r := RationalMul(y.num, y.den, x);
      r.Number? && Canonical(r.value) && ExactValue(r.value) == ExactValue(x) * ExactValue(y)
  {
    var p, q := ExactValue(x), ExactValue(y);
    assert ExactValue(RationalMul(y.num, y.den, x).value) == q * p;
  }

  /**
   * `x / y`: no class defines `__rtruediv__`, so `Integer / Rational` raises
   * `TypeError`; a positive divisor gives the exact quotient.
   */
  function Div(x: Expr, y: Expr): (r: Result<Expr>)
    requires IsNumber(x) && IsNumber(y)
    ensures x.Integer? && y.Rational? ==> r == Err(UnsupportedOperand)
    ensures !(x.Integer? && y.Rational?) && ExactValue(y) > 0.0 ==>
      r.Ok? && IsExact(r.value) && ExactValue(r.value) == ExactValue(x) / ExactValue(y)
    ensures x.Rational? && ExactValue(y) <= 0.0 ==> r.Err?
    ensures x.Integer? && y.Integer? && y.n == 0 ==> r == Err(ZeroDivision)
    ensures x.Integer? && y.Integer? && y.n != 0 && x.n % y.n == 0 ==>
      r.Ok? && r.value.Integer? && ExactValue(r.value) == ExactValue(x) / ExactValue(y)
    ensures x.Integer? && y.Integer? && y.n < 0 && x.n % y.n != 0 ==> r == Err(NonPositiveDenominator)
  {
    var forward := if x.Integer? then IntegerDiv(x.n, y) else RationalDiv(x.num, x.den, y);
    PositiveRational(y);
    Dispatch(forward, None)
  }

  /** A rational with a positive denominator is positive exactly when its numerator is. */
  lemma PositiveRational(y: Expr)
    requires IsNumber(y)
    ensures y.Rational? ==> (ExactValue(y) > 0.0 <==> y.num > 0)
  {
    if y.Rational? {
      assert ExactValue(y) * (y.den as real) == y.num as real;
    }
  }

  /**
   * Python's dispatch of a comparison: the left operand's method, then the
   * right operand's mirrored method (`__gt__` for `<`), and `TypeError` when
   * both return `NotImplemented`.
   */
  function Compare(forward: Option<bool>, mirrored: Option<bool>): (r: Result<bool>)
    ensures forward.Some? ==> r == Ok(forward.value)
    ensures forward.None? && mirrored.Some? ==> r == Ok(mirrored.value)
    ensures forward.None? && mirrored.None? ==> r == Err(UnsupportedOperand)
  {
    if forward.Some? then Ok(forward.value)
    else if mirrored.Some? then Ok(mirrored.value)
    else Err(UnsupportedOperand)
  }

  /** `x < y`: `Integer < Rational` reaches `Rational.__gt__`, so every mix compares by value. */
  function Less(x: Expr, y: Expr): (r: Result<bool>)
    requires IsNumber(x) && IsNumber(y)
    ensures r == Ok(ExactValue(x) < ExactValue(y))
  {
    var forward := if x.Integer? then IntegerLt(x.n, y) else RationalLt(x.num, x.den, y);
    var mirrored := if y.Integer? then IntegerGt(y.n, x) else RationalGt(y.num, y.den, x);
    Compare(forward, mirrored)
  }

  /** `x > y`: `Integer > Rational` reaches `Rational.__lt__`, so every mix compares by value. */
  function Greater(x: Expr, y: Expr): (r: Result<bool>)
    requires IsNumber(x) && IsNumber(y)
    ensures r == Ok(ExactValue(x) > ExactValue(y))
  {
    var forward := if x.Integer? then IntegerGt(x.n, y) else RationalGt(x.num, x.den, y);
    var mirrored := if y.Integer? then IntegerLt(y.n, x) else RationalLt(y.num, y.den, x);
    Compare(forward, mirrored)
  }
}

=== FILE: rule_facts.dfy ===
/**
 * What the pattern matcher of rule.py guarantees, and the quirks it has,
 * stated about the specification in `Rules`.
 */
module RuleFacts {
  import opened Heads
  import opened Terms
  import opened Atoms
  import opened Exprs
  import opened Rules

  // ---------------------------------------------------------------------------
  // Matching an expression against itself

  /** No `Blank` anywhere in the tree. */
  predicate BlankFree(e: Expr)
    decreases e
  {
    !e.Blank? && (e.Compound? ==> forall i :: 0 <= i < |e.args| ==> BlankFree(e.args[i]))
  }

  /** Every commutative node has its children in key order, as construction leaves them. */
  predicate KeySorted(key: Expr -> int, e: Expr)
    decreases e
  {
    e.Compound? ==>
      && (Commutative in e.attr ==> SortedBy(key, e.args))
      && forall i :: 0 <= i < |e.args| ==> KeySorted(key, e.args[i])
  }

  /** A Blank-free expression in constructed order matches itself and binds nothing. */
  lemma {:induction false} MatchSelf(key: Expr -> int, e: Expr, m: map<string, Expr>)
    requires BlankFree(e) && KeySorted(key, e)
    ensures MatchSpec(key, e, e, m) == Outcome(Ok(true), m)
    decreases e, 2
  {
    if e.Compound? {
      if Commutative !in e.attr {
        WalkSelf(key, e, 0, m);
      } else {
        NonBlanksOfBlankFree(e.args);
        SortByKeyOfSorted(key, e.args);
        BlankNamesOfBlankFree(e.args);
        CommSelf(key, e, 0, m);
      }
    }
  }

  lemma {:induction false} WalkSelf(key: Expr -> int, e: Expr, i: nat, m: map<string, Expr>)
    requires e.Compound? && i <= |e.args|
    requires forall j :: 0 <= j < |e.args| ==> BlankFree(e.args[j]) && KeySorted(key, e.args[j])
    ensures Walk(key, e, e, i, i, m) == Outcome(Ok(true), m)
    decreases e, 1, |e.args| - i
  {
    if i < |e.args| {
      MatchSelf(key, e.args[i], m);
      WalkSelf(key, e, i + 1, m);
    }
  }

  lemma {:induction false} CommSelf(key: Expr -> int, e: Expr, k: nat, m: map<string, Expr>)
    requires e.Compound? && k <= |e.args|
    requires forall j :: 0 <= j < |e.args| ==> BlankFree(e.args[j]) && KeySorted(key, e.args[j])
    ensures Comm(key, e, e.args, [], None, k, k, m) == Outcome(Ok(true), m)
    decreases e, 1, |e.args| - k
  {
    if k < |e.args| {
      MatchSelf(key, e.args[k], m);
      CommSelf(key, e, k + 1, m);
    }
  }

  lemma {:induction false} NonBlanksOfBlankFree(s: seq<Expr>)
    requires forall j :: 0 <= j < |s| ==> !s[j].Blank?
    ensures NonBlanks(s) == s
  {
    if |s| > 0 {
      assert !s[0].Blank? && s == [s[0]] + s[1..];
      NonBlanksOfBlankFree(s[1..]);
    }
  }

  lemma {:induction false} BlankNamesOfBlankFree(s: seq<Expr>)
    requires forall j :: 0 <= j < |s| ==> !s[j].Blank?
    ensures BlankNames(s) == []
  {
    if |s| > 0 {
      BlankNamesOfBlankFree(s[1..]);
    }
  }

  // ---------------------------------------------------------------------------
  // Patterns made of Blanks

  /** The pattern children are Blanks with pairwise different names. */
  predicate DistinctBlanks(ps: seq<Expr>)
  {
    && (forall j :: 0 <= j < |ps| ==> ps[j].Blank?)
    && (forall j, l :: 0 <= j < l < |ps| ==> ps[j].text != ps[l].text)
  }

  /** `m` after binding the first `i` Blanks of `ps` to the aligned children of `es`. */
  function BindPrefix(m: map<string, Expr>, ps: seq<Expr>, es: seq<Expr>, i: nat): map<string, Expr>
    requires i <= |ps| <= |es| && DistinctBlanks(ps)
  {
    if i == 0 then m else BindPrefix(m, ps, es, i - 1)[ps[i - 1].text := es[i - 1]]
  }

  lemma {:induction false} BindPrefixKeys(m: map<string, Expr>, ps: seq<Expr>, es: seq<Expr>, i: nat, j: nat)
    requires i <= j < |ps| <= |es| && DistinctBlanks(ps)
    requires ps[j].text !in m
    ensures ps[j].text !in BindPrefix(m, ps, es, i)
  {
    if i > 0 {
      BindPrefixKeys(m, ps, es, i - 1, j);
    }
  }

  /**
   * In the lockstep branch, Blanks with distinct names that the map does not
   * hold yet each bind the aligned expression child; extra expression
   * children are ignored and the match succeeds.
   */
  lemma LockstepBindsFreshBlanks(key: Expr -> int, expr: Expr, pattern: Expr, m: map<string, Expr>)
    requires expr.Compound? && pattern.Compound? && expr.head == pattern.head
    requires Commutative !in expr.attr
    requires |pattern.args| <= |expr.args|
    requires DistinctBlanks(pattern.args)
    requires forall j :: 0 <= j < |pattern.args| ==> pattern.args[j].text !in m
    ensures MatchSpec(key, expr, pattern, m) ==
      Outcome(Ok(true), BindPrefix(m, pattern.args, expr.args, |pattern.args|))
  {
    WalkBindsFreshBlanks(key, expr, pattern, m, 0);
  }

  lemma {:induction false} WalkBindsFreshBlanks(key: Expr -> int, expr: Expr, pattern: Expr, m: map<string, Expr>, i: nat)
    requires expr.Compound? && pattern.Compound?
    requires i <= |pattern.args| <= |expr.args|
    requires DistinctBlanks(pattern.args)
    requires forall j :: 0 <= j < |pattern.args| ==> pattern.args[j].text !in m
    ensures var bound, all := BindPrefix(m, pattern.args, expr.args, i), BindPrefix(m, pattern.args, expr.args, |pattern.args|);
      Walk(key, expr, pattern, i, i, bound) == Outcome(Ok(true), all)
    decreases |pattern.args| - i
  {
    if i < |pattern.args| {
      WalkBindsFreshBlanks(key, expr, pattern, m, i + 1);
      FreshBlankStep(key, expr, pattern, m, i, BindPrefix(m, pattern.args, expr.args, |pattern.args|));
    }
  }

  /**
   * One step of the induction above: binding Blank `i` leads to the walk from
   * `i + 1`. Stated as an implication so that the induction need not
   * re-establish its conditions once the walk is in its context.
   */
  lemma FreshBlankStep(key: Expr -> int, expr: Expr, pattern: Expr, m: map<string, Expr>, i: nat, all: map<string, Expr>)
    ensures
      (&& expr.Compound? && pattern.Compound? && i < |pattern.args| <= |expr.args|
       && DistinctBlanks(pattern.args) && forall j :: 0 <= j < |pattern.args| ==> pattern.args[j].text !in m)
      ==>
      var bound, next := BindPrefix(m, pattern.args, expr.args, i), BindPrefix(m, pattern.args, expr.args, i + 1);
      Walk(key, expr, pattern, i + 1, i + 1, next) == Outcome(Ok(true), all) ==>
      Walk(key, expr, pattern, i, i, bound) == Outcome(Ok(true), all)
  {
    if && expr.Compound? && pattern.Compound? && i < |pattern.args| <= |expr.args|
       && DistinctBlanks(pattern.args) && forall j :: 0 <= j < |pattern.args| ==> pattern.args[j].text !in m
    {
      BindPrefixKeys(m, pattern.args, expr.args, i, i);
      WalkBindStep(key, expr, pattern, i, i, BindPrefix(m, pattern.args, expr.args, i));
    }
  }

  /**
   * Proof step for the lemmas below: a Blank the map does not hold binds the
   * aligned child, and the walk moves on. Stated as an implication so that
   * callers need not re-establish the conditions once the walk is in their
   * context.
   */
  lemma WalkBindStep(key: Expr -> int, expr: Expr, pattern: Expr, ei: nat, pi: nat, m: map<string, Expr>)
    ensures
      && expr.Compound? && pattern.Compound? && ei < |expr.args| && pi < |pattern.args|
      && pattern.args[pi].Blank? && pattern.args[pi].text !in m
      ==>
      Walk(key, expr, pattern, ei, pi, m) ==
      Walk(key, expr, pattern, ei + 1, pi + 1, m[pattern.args[pi].text := expr.args[ei]])
  {
  }

  /**
   * Proof step for the lemmas below: a concrete pattern child that the
   * expression child misses, right after a bound Blank under an associative
   * head, folds the child into that binding and holds the pattern cursor.
   */
  lemma WalkAbsorbStep(key: Expr -> int, expr: Expr, pattern: Expr, ei: nat, pi: nat, m: map<string, Expr>,
                       v: Expr)
    requires expr.Compound? && pattern.Compound? && ei < |expr.args| && 0 < pi < |pattern.args|
    requires !pattern.args[pi].Blank? && pattern.args[pi - 1].Blank? && pattern.args[pi - 1].text in m
    requires Associative in expr.attr
    ensures
      && MatchSpec(key, expr.args[ei], pattern.args[pi], m) == Outcome(Ok(false), m)
      && Absorb(key, expr, m[pattern.args[pi - 1].text], expr.args[ei]) == Ok(v)
      ==>
      Walk(key, expr, pattern, ei, pi, m) == Walk(key, expr, pattern, ei + 1, pi, m[pattern.args[pi - 1].text := v])
  {
  }

  lemma {:induction false} BlankNamesOfBlanks(ps: seq<Expr>)
    requires forall j :: 0 <= j < |ps| ==> ps[j].Blank?
    ensures NonBlanks(ps) == []
    ensures |BlankNames(ps)| == |ps| && forall j :: 0 <= j < |ps| ==> BlankNames(ps)[j] == ps[j].text
  {
    if |ps| > 0 {
      BlankNamesOfBlanks(ps[1..]);
    }
  }

  /**
   * In the commutative branch, a pattern of distinct Blanks with as many
   * children as the expression binds each Blank, in pattern order, to the
   * expression child at the same position.
   */
  lemma CommBindsBlanks(key: Expr -> int, expr: Expr, pattern: Expr, m: map<string, Expr>)
    requires expr.Compound? && pattern.Compound? && expr.head == pattern.head
    requires Commutative in expr.attr
    requires |pattern.args| == |expr.args|
    requires DistinctBlanks(pattern.args)
    ensures MatchSpec(key, expr, pattern, m) ==
      Outcome(Ok(true), BindPrefix(m, pattern.args, expr.args, |pattern.args|))
  {
    BlankNamesOfBlanks(pattern.args);
    CommBindsBlanksFrom(key, expr, pattern, m, 0);
  }

  lemma {:induction false} CommBindsBlanksFrom(key: Expr -> int, expr: Expr, pattern: Expr, m: map<string, Expr>, k: nat)
    requires expr.Compound? && pattern.Compound?
    requires k <= |pattern.args| == |expr.args|
    requires DistinctBlanks(pattern.args)
    requires |BlankNames(pattern.args)| == |pattern.args|
    requires forall j :: 0 <= j < |pattern.args| ==> BlankNames(pattern.args)[j] == pattern.args[j].text
    ensures Comm(key, expr, [], BlankNames(pattern.args)[k..], if k == 0 then None else Some(pattern.args[k - 1].text),
                 k, 0, BindPrefix(m, pattern.args, expr.args, k)) ==
      Outcome(Ok(true), BindPrefix(m, pattern.args, expr.args, |pattern.args|))
    decreases |pattern.args| - k
  {
    if k < |pattern.args| {
      var names := BlankNames(pattern.args);
      assert names[k..][0] == pattern.args[k].text;
      assert names[k..][1..] == names[k + 1..];
      CommBindsBlanksFrom(key, expr, pattern, m, k + 1);
    }
  }

  /**
   * With no Blank in the pattern, a commutative match succeeds exactly when
   * every expression child matched the next concrete pattern child in key
   * order, under the map the earlier children left, so the pattern and the
   * expression have equally many children.
   */
  lemma CommConcreteOnly(key: Expr -> int, expr: Expr, pattern: Expr, m: map<string, Expr>)
    requires pattern.Compound? && Commutative in Attrs(expr)
    requires forall j :: 0 <= j < |pattern.args| ==> !pattern.args[j].Blank?
    requires MatchSpec(key, expr, pattern, m).verdict == Ok(true)
    ensures |Args(expr)| == |pattern.args|
    ensures MatchesInOrder(key, Args(expr), SortByKey(key, pattern.args), m)
  {
    NonBlanksOfBlankFree(pattern.args);
    BlankNamesOfBlankFree(pattern.args);
    if Head(expr) == pattern.head && |pattern.args| <= |Args(expr)| {
      CommConcreteOnlyFrom(key, expr, SortByKey(key, pattern.args), 0, 0, m);
      CommInOrder(key, expr, SortByKey(key, pattern.args), None, 0, 0, m);
    }
  }

  /** The converse: children that match the sorted concrete pattern children one by one match the pattern. */
  lemma CommConcreteMatches(key: Expr -> int, expr: Expr, pattern: Expr, m: map<string, Expr>)
    requires pattern.Compound? && Commutative in Attrs(expr) && Head(expr) == pattern.head
    requires forall j :: 0 <= j < |pattern.args| ==> !pattern.args[j].Blank?
    requires |pattern.args| == |Args(expr)|
    requires MatchesInOrder(key, Args(expr), SortByKey(key, pattern.args), m)
    ensures MatchSpec(key, expr, pattern, m).verdict == Ok(true)
  {
    NonBlanksOfBlankFree(pattern.args);
    BlankNamesOfBlankFree(pattern.args);
    CommInOrder(key, expr, SortByKey(key, pattern.args), None, 0, 0, m);
  }

  /**
   * `es[j]` matches `ps[j]` for each `j`, each match starting from the map
   * the one before left; `ps` may be longer.
   */
  predicate MatchesInOrder(key: Expr -> int, es: seq<Expr>, ps: seq<Expr>, m: map<string, Expr>)
    decreases |es|
  {
    |es| == 0 ||
    (|ps| > 0 &&
     var sub := MatchSpec(key, es[0], ps[0], m);
     sub.verdict == Ok(true) && MatchesInOrder(key, es[1..], ps[1..], sub.bindings))
  }

  /**
   * Once the Blanks are used up, and a child that misses cannot be folded
   * (the head is not associative, or no Blank was bound), the greedy pass
   * succeeds exactly when each remaining child matches the next concrete
   * pattern child.
   */
  lemma {:induction false} CommInOrder(key: Expr -> int, expr: Expr, nonBlanks: seq<Expr>, last: Option<string>,
                                       k: nat, nb: nat, m: map<string, Expr>)
    requires k <= |Args(expr)| && nb <= |nonBlanks|
    requires Associative !in Attrs(expr) || last.None?
    ensures Comm(key, expr, nonBlanks, [], last, k, nb, m).verdict == Ok(true) <==>
      MatchesInOrder(key, Args(expr)[k..], nonBlanks[nb..], m)
    decreases |Args(expr)| - k
  {
    if k < |Args(expr)| {
      InOrderUnfold(key, Args(expr), nonBlanks, k, nb, m);
      CommLeftoverFails(key, expr, nonBlanks, last, k, nb, m);
      if nb < |nonBlanks| {
        CommMatchStep(key, expr, nonBlanks, last, k, nb, m);
        CommInOrder(key, expr, nonBlanks, last, k + 1, nb + 1, MatchSpec(key, expr.args[k], nonBlanks[nb], m).bindings);
      }
    }
  }

  /** Proof step for `CommInOrder`: `MatchesInOrder` on suffixes, one child at a time. */
  lemma InOrderUnfold(key: Expr -> int, es: seq<Expr>, ps: seq<Expr>, k: nat, nb: nat, m: map<string, Expr>)
    requires k < |es| && nb <= |ps|
    ensures MatchesInOrder(key, es[k..], ps[nb..], m) <==>
      nb < |ps| &&
      var sub := MatchSpec(key, es[k], ps[nb], m);
      sub.verdict == Ok(true) && MatchesInOrder(key, es[k + 1..], ps[nb + 1..], sub.bindings)
  {
    assert es[k..][0] == es[k] && es[k..][1..] == es[k + 1..];
    if nb < |ps| {
      assert ps[nb..][0] == ps[nb] && ps[nb..][1..] == ps[nb + 1..];
    }
  }

  /**
   * Proof step for `CommInOrder`: a child that matches the next concrete child
   * moves both cursors on; an error ends the pass.
   */
  lemma CommMatchStep(key: Expr -> int, expr: Expr, nonBlanks: seq<Expr>, last: Option<string>,
                      k: nat, nb: nat, m: map<string, Expr>)
    requires k < |Args(expr)| && nb < |nonBlanks|
    ensures var sub := MatchSpec(key, expr.args[k], nonBlanks[nb], m);
      && (sub.verdict == Ok(true) ==>
            Comm(key, expr, nonBlanks, [], last, k, nb, m) == Comm(key, expr, nonBlanks, [], last, k + 1, nb + 1, sub.bindings))
      && (sub.verdict.Err? ==> Comm(key, expr, nonBlanks, [], last, k, nb, m) == sub)
  {
  }

  lemma {:induction false} CommConcreteOnlyFrom(key: Expr -> int, expr: Expr, nonBlanks: seq<Expr>, k: nat, nb: nat, m: map<string, Expr>)
    ensures nb <= |nonBlanks| && Comm(key, expr, nonBlanks, [], None, k, nb, m).verdict == Ok(true) ==>
      |Args(expr)| - k <= |nonBlanks| - nb
    decreases |Args(expr)| - k
  {
    if k < |Args(expr)| && nb < |nonBlanks| {
      var sub := MatchSpec(key, expr.args[k], nonBlanks[nb], m);
      CommConcreteOnlyFrom(key, expr, nonBlanks, k + 1, nb + 1, sub.bindings);
    }
  }

  // ---------------------------------------------------------------------------
  // When a step of the matcher fails, and when it folds

  /**
   * A Blank that is already bound must match its aligned child against its
   * binding: the walk goes on only if that sub-match succeeds, and otherwise
   * its outcome (a failure or an error) is the walk's.
   */
  lemma WalkBoundBlank(key: Expr -> int, expr: Expr, pattern: Expr, ei: nat, pi: nat, m: map<string, Expr>)
    requires pattern.Compound? && pi < |pattern.args| && ei < |Args(expr)|
    requires pattern.args[pi].Blank? && pattern.args[pi].text in m
    ensures var sub := MatchSpec(key, expr.args[ei], m[pattern.args[pi].text], m);
      && (sub.verdict == Ok(true) ==> Walk(key, expr, pattern, ei, pi, m) == Walk(key, expr, pattern, ei + 1, pi + 1, sub.bindings))
      && (sub.verdict != Ok(true) ==> Walk(key, expr, pattern, ei, pi, m) == sub)
  {
  }

  /**
   * A concrete pattern child that its aligned child misses fails the whole
   * walk, unless the head is associative and the pattern child before it
   * (the last one, at index 0) is a Blank; that Blank unbound raises KeyError.
   */
  lemma WalkConcreteMiss(key: Expr -> int, expr: Expr, pattern: Expr, ei: nat, pi: nat, m: map<string, Expr>)
    requires pattern.Compound? && pi < |pattern.args| && ei < |Args(expr)| && !pattern.args[pi].Blank?
    ensures var sub := MatchSpec(key, expr.args[ei], pattern.args[pi], m);
      var prev := pattern.args[if pi == 0 then |pattern.args| - 1 else pi - 1];
      sub.verdict == Ok(false) ==>
        && (!(Associative in Attrs(expr) && prev.Blank?) ==> Walk(key, expr, pattern, ei, pi, m) == Outcome(Ok(false), sub.bindings))
        && (Associative in Attrs(expr) && prev.Blank? && prev.text !in sub.bindings ==>
              Walk(key, expr, pattern, ei, pi, m) == Outcome(Err(UnboundBlank), sub.bindings))
  {
  }

  /**
   * Once the Blanks are used up, a child that matches no next concrete child
   * fails the commutative pass when the head is not associative or no Blank
   * was ever bound.
   */
  lemma CommLeftoverFails(key: Expr -> int, expr: Expr, nonBlanks: seq<Expr>, last: Option<string>,
                          k: nat, nb: nat, m: map<string, Expr>)
    requires k < |Args(expr)|
    requires Associative !in Attrs(expr) || last.None?
    ensures var sub := if nb < |nonBlanks| then MatchSpec(key, expr.args[k], nonBlanks[nb], m) else Outcome(Ok(false), m);
      sub.verdict == Ok(false) ==> Comm(key, expr, nonBlanks, [], last, k, nb, m) == Outcome(Ok(false), sub.bindings)
  {
  }

  /**
   * Once the Blanks are used up under an associative head, a child that
   * matches no next concrete child is folded into the last bound Blank: by
   * construction when that binding has another head, by appending when it has
   * the same head; an unbound Blank raises KeyError, and so does a failed
   * construction.
   */
  lemma CommAbsorbStep(key: Expr -> int, expr: Expr, nonBlanks: seq<Expr>, last: Option<string>,
                       k: nat, nb: nat, m: map<string, Expr>)
    requires k < |Args(expr)| && Associative in Attrs(expr) && last.Some?
    ensures var sub := if nb < |nonBlanks| then MatchSpec(key, expr.args[k], nonBlanks[nb], m) else Outcome(Ok(false), m);
      var n, name, child := sub.bindings, last.value, expr.args[k];
      sub.verdict == Ok(false) ==>
        && (name !in n ==> Comm(key, expr, nonBlanks, [], last, k, nb, m) == Outcome(Err(UnboundBlank), n))
        && (name in n && Head(n[name]) != Head(expr) ==>
              var built := Absorb(key, expr, n[name], child);
              && (built.Err? ==> Comm(key, expr, nonBlanks, [], last, k, nb, m) == Outcome(Err(built.error), n))
              && (built.Ok? ==>
                    Comm(key, expr, nonBlanks, [], last, k, nb, m) ==
                    Comm(key, expr, nonBlanks, [], last, k + 1, nb, n[name := built.value])))
        && (name in n && Head(n[name]) == Head(expr) ==>
              Comm(key, expr, nonBlanks, [], last, k, nb, m) ==
              Comm(key, expr, nonBlanks, [], last, k + 1, nb, n[name := Append(n[name], child)]))
  {
  }

  // ---------------------------------------------------------------------------
  // Worked cases of the matcher's behaviour

  const a: Expr := Symbol("a")
  const b: Expr := Symbol("b")
  const c: Expr := Symbol("c")

  /** A compound under a head with no registered attributes. */
  function F(args: seq<Expr>): Expr
  {
    Compound("f", args, {})
  }

  /** A compound under a head declared associative but not commutative. */
  function Dot(args: seq<Expr>): Expr
  {
    Compound("Dot", args, {Associative})
  }

  /** Building a two-child compound from children of other heads keeps them in key order. */
  lemma ConstructPair(key: Expr -> int, head: string, attr: set<Attribute>, x: Expr, y: Expr)
    requires Head(x) != head && Head(y) != head
    requires Commutative in ConstructAttrs(head, attr) ==> key(x) <= key(y)
    requires FixedArgNum !in ConstructAttrs(head, attr)
    ensures Construct(key, head, [Node(x), Node(y)], attr) == Ok(Compound(head, [x, y], ConstructAttrs(head, attr)))
  {
    var attrs := ConstructAttrs(head, attr);
    PairAtomized(x, y);
    PairGathered(head, attrs, x, y);
    if Commutative in attrs {
      PairSorted(key, x, y);
    }
  }

  lemma PairGathered(head: string, attrs: set<Attribute>, x: Expr, y: Expr)
    requires Head(x) != head && Head(y) != head
    ensures Gathered(head, attrs, [x, y]) == [x, y]
  {
    FlattenOnceNoop(head, [x, y]);
  }

  lemma PairSorted(key: Expr -> int, x: Expr, y: Expr)
    requires key(x) <= key(y)
    ensures SortByKey(key, [x, y]) == [x, y]
  {
    assert SortByKey(key, [y]) == [y];
    assert SortByKey(key, [x, y]) == Insert(key, x, SortByKey(key, [y]));
  }

  /**
   * `f(a, c)` against `f(_x, b)`: `_x` binds `a`, then `b` fails to match `c`;
   * the match fails and the binding stays in the map.
   */
  lemma FailedMatchKeepsBindings(key: Expr -> int)
    ensures MatchSpec(key, F([a, c]), F([Blank("x"), b]), map[]) == Outcome(Ok(false), map["x" := a])
  {
    var m1 := map["x" := a];
    assert MatchSpec(key, c, b, m1) == Outcome(Ok(false), m1);
    assert Walk(key, F([a, c]), F([Blank("x"), b]), 1, 1, m1) == Outcome(Ok(false), m1);
  }

  /** `f(a, b)` against `f(_x, _x)` fails: the second `_x` must match `a`. */
  lemma RepeatedBlankMismatch(key: Expr -> int)
    ensures MatchSpec(key, F([a, b]), F([Blank("x"), Blank("x")]), map[]) == Outcome(Ok(false), map["x" := a])
  {
    var m1 := map["x" := a];
    assert MatchSpec(key, b, a, m1) == Outcome(Ok(false), m1);
    assert Walk(key, F([a, b]), F([Blank("x"), Blank("x")]), 1, 1, m1) == Outcome(Ok(false), m1);
  }

  /** `f(a, a)` against `f(_x, _x)` succeeds with `_x` bound to `a`. */
  lemma RepeatedBlankMatch(key: Expr -> int)
    ensures MatchSpec(key, F([a, a]), F([Blank("x"), Blank("x")]), map[]) == Outcome(Ok(true), map["x" := a])
  {
    var m1 := map["x" := a];
    assert MatchSpec(key, a, a, m1) == Outcome(Ok(true), m1);
    assert Walk(key, F([a, a]), F([Blank("x"), Blank("x")]), 2, 2, m1) == Outcome(Ok(true), m1);
    assert Walk(key, F([a, a]), F([Blank("x"), Blank("x")]), 1, 1, m1) == Outcome(Ok(true), m1);
  }

  /**
   * Associative absorption: `Dot(a, b, c)` against `Dot(_x, c)` binds `_x`
   * to `a`, then absorbs `b` into it, rebuilt by construction as `Dot(a, b)`,
   * and matches `c` with the pattern cursor held back.
   */
  lemma AssociativeAbsorption(key: Expr -> int)
    ensures MatchSpec(key, Dot([a, b, c]), Dot([Blank("x"), c]), map[]) == Outcome(Ok(true), map["x" := Dot([a, b])])
  {
    DotAbsorbs(key, a, b, c, "x");
  }

  /** The same run for any symbols `x`, `y` and `z` with `z` different from `y`. */
  lemma DotAbsorbs(key: Expr -> int, x: Expr, y: Expr, z: Expr, name: string)
    requires x.Symbol? && y.Symbol? && z.Symbol? && y.text != z.text
    ensures MatchSpec(key, Dot([x, y, z]), Dot([Blank(name), z]), map[]) ==
      Outcome(Ok(true), map[name := Dot([x, y])])
  {
    DotStart(key, x, y, z, name);
    DotFold(key, x, y, z, name);
    DotFinish(key, x, y, z, name);
  }

  lemma DotStart(key: Expr -> int, x: Expr, y: Expr, z: Expr, name: string)
    ensures MatchSpec(key, Dot([x, y, z]), Dot([Blank(name), z]), map[]) ==
      Walk(key, Dot([x, y, z]), Dot([Blank(name), z]), 1, 1, map[name := x])
  {
    var e, p := Dot([x, y, z]), Dot([Blank(name), z]);
    WalkEntry(key, e, p, map[]);
    WalkBindStep(key, e, p, 0, 0, map[]);
  }

  lemma DotFold(key: Expr -> int, x: Expr, y: Expr, z: Expr, name: string)
    ensures x.Symbol? && y.Symbol? && z.Symbol? && y.text != z.text ==>
      Walk(key, Dot([x, y, z]), Dot([Blank(name), z]), 1, 1, map[name := x]) ==
      Walk(key, Dot([x, y, z]), Dot([Blank(name), z]), 2, 1, map[name := x][name := Dot([x, y])])
  {
    if x.Symbol? && y.Symbol? && z.Symbol? && y.text != z.text {
      var e, p := Dot([x, y, z]), Dot([Blank(name), z]);
      WalkAbsorbStep(key, e, p, 1, 1, map[name := x], Dot([x, y]));
      DotPair(key, x, y, z);
      SymbolMismatch(key, y, z, map[name := x]);
    }
  }

  /** Folding `y` into a binding `x` under `Dot` builds `Dot(x, y)`. */
  lemma DotPair(key: Expr -> int, x: Expr, y: Expr, z: Expr)
    requires x.Symbol? && y.Symbol?
    ensures Absorb(key, Dot([x, y, z]), x, y) == Ok(Dot([x, y]))
  {
    assert ConstructAttrs("Dot", {Associative}) == {Associative};
    ConstructPair(key, "Dot", {Associative}, x, y);
  }

  lemma DotFinish(key: Expr -> int, x: Expr, y: Expr, z: Expr, name: string)
    ensures var m2 := map[name := x][name := Dot([x, y])];
      z.Symbol? ==>
      Walk(key, Dot([x, y, z]), Dot([Blank(name), z]), 2, 1, m2) == Outcome(Ok(true), map[name := Dot([x, y])])
  {
    if z.Symbol? {
      var e, p := Dot([x, y, z]), Dot([Blank(name), z]);
      var m2 := map[name := x][name := Dot([x, y])];
      WalkConcreteStep(key, e, p, 2, 1, m2);
      assert MatchSpec(key, z, z, m2) == Outcome(Ok(true), m2);
      assert m2 == map[name := Dot([x, y])];
    }
  }

  /** A non-commutative compound pattern with no more children than the expression starts the lockstep walk. */
  lemma WalkEntry(key: Expr -> int, expr: Expr, pattern: Expr, m: map<string, Expr>)
    requires expr.Compound? && pattern.Compound? && expr.head == pattern.head
    requires |pattern.args| <= |expr.args| && Commutative !in expr.attr
    ensures MatchSpec(key, expr, pattern, m) == Walk(key, expr, pattern, 0, 0, m)
  {
  }

  /**
   * A concrete first pattern child that fails reads the child before it at
   * index -1, the last one: `Dot(a, b)` against `Dot(c, _y)` looks `_y` up
   * before it was bound and raises.
   */
  lemma FirstChildReadsLastPatternChild(key: Expr -> int)
    ensures MatchSpec(key, Dot([a, b]), Dot([c, Blank("y")]), map[]) == Outcome(Err(UnboundBlank), map[])
  {
    assert MatchSpec(key, a, c, map[]) == Outcome(Ok(false), map[]);
  }

  /**
   * The commutative pass may succeed without matching a concrete pattern
   * child: `a + b` against `_x + c` binds `_x` to `a`, then absorbs `b` into
   * it, giving `a + b`, and never finds `c`.
   */
  lemma CommutativeIgnoresUnmatchedChild(key: Expr -> int)
    requires key(a) < key(b)
    ensures var plus := {Commutative, Associative};
      MatchSpec(key, Compound("Plus", [a, b], plus), Compound("Plus", [Blank("x"), c], plus), map[]) ==
      Outcome(Ok(true), map["x" := Compound("Plus", [a, b], plus)])
  {
    BlankAbsorbsUnmatched(key, a, b, c, "x");
  }

  /** The same run for any symbols `x`, `y` and `z` with `z` different from both. */
  lemma BlankAbsorbsUnmatched(key: Expr -> int, x: Expr, y: Expr, z: Expr, name: string)
    requires x.Symbol? && y.Symbol? && z.Symbol? && x.text != z.text && y.text != z.text
    requires key(x) < key(y)
    ensures var plus := {Commutative, Associative};
      MatchSpec(key, Compound("Plus", [x, y], plus), Compound("Plus", [Blank(name), z], plus), map[]) ==
      Outcome(Ok(true), map[name := Compound("Plus", [x, y], plus)])
  {
    BlankTakesFirst(key, x, y, z, name);
    UnmatchedAbsorbed(key, x, y, z, name);
  }

  /** The first child misses `z` and binds the Blank. */
  lemma BlankTakesFirst(key: Expr -> int, x: Expr, y: Expr, z: Expr, name: string)
    requires x.Symbol? && z.Symbol? && x.text != z.text
    ensures var plus := {Commutative, Associative}; var e := Compound("Plus", [x, y], plus);
      MatchSpec(key, e, Compound("Plus", [Blank(name), z], plus), map[]) ==
      Comm(key, e, [z], [], Some(name), 1, 0, map[name := x])
  {
    var plus := {Commutative, Associative};
    var e := Compound("Plus", [x, y], plus);
    var p := Compound("Plus", [Blank(name), z], plus);
    SplitBlankAndSymbol(key, name, z);
    CommEntry(key, e, p, map[]);
    SymbolMismatch(key, x, z, map[]);
    CommBindStep(key, e, [z], [name], None, 0, 0, map[]);
  }

  /** The second child misses `z` too, finds no Blank left and is folded into the first. */
  lemma UnmatchedAbsorbed(key: Expr -> int, x: Expr, y: Expr, z: Expr, name: string)
    requires x.Symbol? && y.Symbol? && z.Symbol? && y.text != z.text && key(x) < key(y)
    ensures var plus := {Commutative, Associative}; var e := Compound("Plus", [x, y], plus);
      Comm(key, e, [z], [], Some(name), 1, 0, map[name := x]) == Outcome(Ok(true), map[name := e])
  {
    var e := Compound("Plus", [x, y], {Commutative, Associative});
    var m1 := map[name := x];
    Overwrite(name, x, e);
    CommAbsorbStep(key, e, [z], Some(name), 1, 0, m1);
    SecondChildFolds(key, x, y, z, name);
  }

  /** Binding a name twice keeps the second value only. */
  lemma Overwrite(name: string, x: Expr, y: Expr)
    ensures map[name := x][name := y] == map[name := y]
  {
  }

  /** Stated as an implication so that callers need not re-establish the symbols in a large context. */
  lemma SecondChildFolds(key: Expr -> int, x: Expr, y: Expr, z: Expr, name: string)
    ensures x.Symbol? && y.Symbol? && z.Symbol? && y.text != z.text && key(x) < key(y) ==>
      var e := Compound("Plus", [x, y], {Commutative, Associative}); var m1 := map[name := x];
      MatchSpec(key, e.args[1], [z][0], m1) == Outcome(Ok(false), m1)
      && Head(m1[name]) != e.head && Absorb(key, e, m1[name], e.args[1]) == Ok(e)
  {
    if x.Symbol? && y.Symbol? && z.Symbol? && y.text != z.text && key(x) < key(y) {
      AbsorbSum(key, x, y);
      SymbolMismatch(key, y, z, map[name := x]);
    }
  }

  lemma SplitBlankAndSymbol(key: Expr -> int, name: string, z: Expr)
    requires !z.Blank?
    ensures SortByKey(key, NonBlanks([Blank(name), z])) == [z]
    ensures BlankNames([Blank(name), z]) == [name]
  {
    var s := [Blank(name), z];
    assert s[1..] == [z] && [z][1..] == [];
    assert NonBlanks([z]) == [z] + NonBlanks([]);
    assert BlankNames([z]) == BlankNames([]);
    assert SortByKey(key, [z]) == [z];
  }

  /** Folding `y` into a binding `x` of a sum builds `x + y`. */
  lemma AbsorbSum(key: Expr -> int, x: Expr, y: Expr)
    requires x.Symbol? && y.Symbol? && key(x) < key(y)
    ensures var e := Compound("Plus", [x, y], {Commutative, Associative});
      Absorb(key, e, x, y) == Ok(e)
  {
    assert ConstructAttrs("Plus", {Commutative, Associative}) == {Commutative, Associative};
    ConstructPair(key, "Plus", {Commutative, Associative}, x, y);
  }

  /** Two different symbols do not match, and the bindings stay as they were. */
  lemma SymbolMismatch(key: Expr -> int, x: Expr, y: Expr, m: map<string, Expr>)
    requires x.Symbol? && y.Symbol? && x.text != y.text
    ensures MatchSpec(key, x, y, m) == Outcome(Ok(false), m)
  {
  }

  /** A commutative compound pattern with no more children than the expression starts the greedy pass. */
  lemma CommEntry(key: Expr -> int, expr: Expr, pattern: Expr, m: map<string, Expr>)
    requires expr.Compound? && pattern.Compound? && expr.head == pattern.head
    requires |pattern.args| <= |expr.args| && Commutative in expr.attr
    ensures MatchSpec(key, expr, pattern, m) ==
      Comm(key, expr, SortByKey(key, NonBlanks(pattern.args)), BlankNames(pattern.args), None, 0, 0, m)
  {
  }

  /** Proof step: a child that matches no concrete pattern child takes the next unused Blank. */
  lemma CommBindStep(key: Expr -> int, expr: Expr, nonBlanks: seq<Expr>, blanks: seq<string>, last: Option<string>,
                     k: nat, nb: nat, m: map<string, Expr>)
    requires expr.Compound? && k < |expr.args| && nb < |nonBlanks| && |blanks| > 0
    requires MatchSpec(key, expr.args[k], nonBlanks[nb], m) == Outcome(Ok(false), m)
    ensures Comm(key, expr, nonBlanks, blanks, last, k, nb, m) ==
      Comm(key, expr, nonBlanks, blanks[1..], Some(blanks[0]), k + 1, nb, m[blanks[0] := expr.args[k]])
  {
  }

  // ---------------------------------------------------------------------------
  // The shared default map

  /**
   * `match_expr(f(a), f(_x))` then `match_expr(f(b), f(_x))` without a map:
   * both calls use the one dictionary created with the function, so the
   * second call finds `_x` bound to `a` and fails.
   */
  method DefaultMapLeaks(key: Expr -> int) returns (first: Result<bool>, second: Result<bool>)
    ensures first == Ok(true) && second == Ok(false)
  {
    var shared := new Bindings();
    assert MatchSpec(key, F([a]), F([Blank("x")]), map[]) == Outcome(Ok(true), map["x" := a]) by {
      assert Walk(key, F([a]), F([Blank("x")]), 1, 1, map["x" := a]) == Outcome(Ok(true), map["x" := a]);
    }
    var same;
    first, same := Match(key, F([a]), F([Blank("x")]), shared);
    assert MatchSpec(key, F([b]), F([Blank("x")]), map["x" := a]).verdict == Ok(false) by {
      assert MatchSpec(key, b, a, map["x" := a]) == Outcome(Ok(false), map["x" := a]);
    }
    second, same := Match(key, F([b]), F([Blank("x")]), same);
  }

  /** With a new map per call, the second match of the sequence above succeeds. */
  method FreshMapsDoNotLeak(key: Expr -> int) returns (first: Result<bool>, second: Result<bool>)
    ensures first == Ok(true) && second == Ok(true)
  {
    LockstepBindsFreshBlanks(key, F([a]), F([Blank("x")]), map[]);
    LockstepBindsFreshBlanks(key, F([b]), F([Blank("x")]), map[]);
    var m1, m2;
    first, m1 := MatchFresh(key, F([a]), F([Blank("x")]));
    second, m2 := MatchFresh(key, F([b]), F([Blank("x")]));
  }
}

=== FILE: rules.dfy ===
/**
 * Rules and the pattern matcher of rule.py. `match_expr` walks an expression
 * and a pattern together, binding `Blank` names in a dictionary it mutates:
 * in lockstep for a non-commutative head, and in one greedy pass over the
 * expression's children for a commutative head.
 */
module Rules {
  import opened Heads
  import opened Terms
  import opened Atoms
  import opened Exprs

  /** `Rule(lhs, rhs)`: plain data. */
  datatype Rule = Rule(lhs: Expr, rhs: Expr)

  /** The outcome of a match: the verdict (or the exception) and the binding map after it. */
  datatype Outcome = Outcome(verdict: Result<bool>, bindings: map<string, Expr>)

  /** The pattern children that are not `Blank`, in order. */
  function NonBlanks(s: seq<Expr>): (r: seq<Expr>)
    ensures forall i :: 0 <= i < |r| ==> !r[i].Blank?
    ensures forall x :: x in r <==> x in s && !x.Blank?
  {
    if |s| == 0 then []
    else if s[0].Blank? then NonBlanks(s[1..])
    else [s[0]] + NonBlanks(s[1..])
  }

  /** The names of the pattern children that are `Blank`, in order. */
  function BlankNames(s: seq<Expr>): (r: seq<string>)
    ensures forall x :: x in r <==> Blank(x) in s
  {
    if |s| == 0 then []
    else if s[0].Blank? then [s[0].text] + BlankNames(s[1..])
    else BlankNames(s[1..])
  }

  /** The concrete children are picked piece by piece, so their order and repeats are kept. */
  lemma {:induction false} NonBlanksAppend(a: seq<Expr>, b: seq<Expr>)
    ensures NonBlanks(a + b) == NonBlanks(a) + NonBlanks(b)
    decreases |a|
  {
    if |a| == 0 {
      assert a + b == b;
    } else {
      assert (a + b)[0] == a[0] && (a + b)[1..] == a[1..] + b;
      NonBlanksAppend(a[1..], b);
      var x, y := NonBlanks(a[1..]), NonBlanks(b);
      if !a[0].Blank? {
        assert [a[0]] + (x + y) == ([a[0]] + x) + y;
      }
    }
  }

  /** One child is a concrete child exactly when it is not a `Blank`. */
  lemma NonBlanksSingle(x: Expr)
    ensures NonBlanks([x]) == if x.Blank? then [] else [x]
  {
    assert [x][1..] == [];
  }

  /** The Blank names are picked piece by piece, so pattern order and repeated names are kept. */
  lemma {:induction false} BlankNamesAppend(a: seq<Expr>, b: seq<Expr>)
    ensures BlankNames(a + b) == BlankNames(a) + BlankNames(b)
    decreases |a|
  {
    if |a| == 0 {
      assert a + b == b;
    } else {
      assert (a + b)[0] == a[0] && (a + b)[1..] == a[1..] + b;
      BlankNamesAppend(a[1..], b);
      var x, y := BlankNames(a[1..]), BlankNames(b);
      if a[0].Blank? {
        assert [a[0].text] + (x + y) == ([a[0].text] + x) + y;
      }
    }
  }

  /** One child contributes its name exactly when it is a `Blank`. */
  lemma BlankNamesSingle(x: Expr)
    ensures BlankNames([x]) == if x.Blank? then [x.text] else []
  {
    assert [x][1..] == [];
  }

  /** Every pattern child is either a concrete child or a Blank name, never both. */
  lemma {:induction false} BlanksPartition(s: seq<Expr>)
    ensures |NonBlanks(s)| + |BlankNames(s)| == |s|
  {
    if |s| > 0 {
      BlanksPartition(s[1..]);
    }
  }

  /**
   * `matched_value.args.append(x)` seen as a value: the binding gains a last
   * child, without re-ordering or flattening. An atom's child list is not
   * part of its value.
   */
  function Append(e: Expr, x: Expr): (r: Expr)
    ensures e.Compound? ==> r.Compound? && r.head == e.head && r.attr == e.attr && r.args == e.args + [x]
    ensures !e.Compound? ==> r == e
  {
    if e.Compound? then Compound(e.head, e.args + [x], e.attr) else e
  }

  /** `Expr(head, [binding, child], list(expr.attr))`, the rebuilt binding of an absorbing `Blank`. */
  function Absorb(key: Expr -> int, expr: Expr, binding: Expr, child: Expr): Result<Expr>
  {
    Construct(key, Head(expr), [Node(binding), Node(child)], Attrs(expr))
  }

  /**
   * `match_expr(expr, pattern, m)` (rule.py:59-140): an atom pattern is
   * compared with `==`; otherwise the heads must agree and the pattern may
   * not have more children than the expression.
   */
  function MatchSpec(key: Expr -> int, expr: Expr, pattern: Expr, m: map<string, Expr>): (o: Outcome)
    ensures m.Keys <= o.bindings.Keys
    ensures !pattern.Compound? ==> o == Outcome(Ok(AtomEqual(pattern, expr)), m)
    ensures pattern.Compound? && (Head(expr) != pattern.head || |pattern.args| > |Args(expr)|) ==>
      o == Outcome(Ok(false), m)
    decreases expr, 2
  {
    if !pattern.Compound? then
      Outcome(Ok(AtomEqual(pattern, expr)), m)
    else if Head(expr) != pattern.head || |pattern.args| > |Args(expr)| then
      Outcome(Ok(false), m)
    else if Commutative !in Attrs(expr) then
      Walk(key, expr, pattern, 0, 0, m)
    else
      Comm(key, expr, SortByKey(key, NonBlanks(pattern.args)), BlankNames(pattern.args), None, 0, 0, m)
  }

  /**
   * The lockstep loop of the non-commutative branch (rule.py:71-108) from
   * expression index `ei` and pattern index `pi`. A mismatching concrete child
   * right after a `Blank` (index -1 at the start, that is, the last pattern
   * child) is absorbed into that Blank's binding when the head is associative.
   */
  function Walk(key: Expr -> int, expr: Expr, pattern: Expr, ei: nat, pi: nat, m: map<string, Expr>): (o: Outcome)
    requires pattern.Compound?
    ensures m.Keys <= o.bindings.Keys
    ensures pi >= |pattern.args| ==> o == Outcome(Ok(true), m)
    ensures pi < |pattern.args| && ei >= |Args(expr)| ==> o == Outcome(Ok(false), m)
    decreases expr, 1, |Args(expr)| - ei
  {
    if pi >= |pattern.args| then
      Outcome(Ok(true), m)
    else if ei >= |Args(expr)| then
      Outcome(Ok(false), m)
    else
      var child := expr.args[ei];
      var p := pattern.args[pi];
      if p.Blank? && p.text in m then
        var sub := MatchSpec(key, child, m[p.text], m);
        if sub.verdict == Ok(true) then Walk(key, expr, pattern, ei + 1, pi + 1, sub.bindings) else sub
      else if p.Blank? then
        Walk(key, expr, pattern, ei + 1, pi + 1, m[p.text := child])
      else
        var sub := MatchSpec(key, child, p, m);
        if sub.verdict == Ok(true) then
          Walk(key, expr, pattern, ei + 1, pi + 1, sub.bindings)
        else if sub.verdict.Err? then
          sub
        else
          var prev := pattern.args[if pi == 0 then |pattern.args| - 1 else pi - 1];
          var n := sub.bindings;
          if Associative in Attrs(expr) && prev.Blank? then
            if prev.text !in n then
              Outcome(Err(UnboundBlank), n)
            else
              var built := Absorb(key, expr, n[prev.text], child);
              if built.Err? then Outcome(Err(built.error), n)
              else Walk(key, expr, pattern, ei + 1, pi, n[prev.text := built.value])
          else
            Outcome(Ok(false), n)
  }

  /**
   * The greedy pass of the commutative branch (rule.py:110-138) from
   * expression index `k`: `nonBlanks[nb]` is the next concrete pattern child
   * to find, `blanks` the Blank names not yet used, `last` the last one bound.
   */
  function Comm(key: Expr -> int, expr: Expr, nonBlanks: seq<Expr>, blanks: seq<string>, last: Option<string>,
                k: nat, nb: nat, m: map<string, Expr>): (o: Outcome)
    ensures m.Keys <= o.bindings.Keys
    ensures k >= |Args(expr)| ==> o == Outcome(Ok(true), m)
    decreases expr, 1, |Args(expr)| - k
  {
    if k >= |Args(expr)| then
      Outcome(Ok(true), m)
    else
      var child := expr.args[k];
      var sub := if nb < |nonBlanks| then MatchSpec(key, child, nonBlanks[nb], m) else Outcome(Ok(false), m);
      if sub.verdict.Err? then
        sub
      else if sub.verdict.value then
        Comm(key, expr, nonBlanks, blanks, last, k + 1, nb + 1, sub.bindings)
      else
        var n := sub.bindings;
        if |blanks| > 0 then
          Comm(key, expr, nonBlanks, blanks[1..], Some(blanks[0]), k + 1, nb, n[blanks[0] := child])
        else if Associative in Attrs(expr) && last.Some? then
          if last.value !in n then
            Outcome(Err(UnboundBlank), n)
          else if Head(n[last.value]) != Head(expr) then
            var built := Absorb(key, expr, n[last.value], child);
            if built.Err? then Outcome(Err(built.error), n)
            else Comm(key, expr, nonBlanks, blanks, last, k + 1, nb, n[last.value := built.value])
          else
            Comm(key, expr, nonBlanks, blanks, last, k + 1, nb, n[last.value := Append(n[last.value], child)])
        else
          Outcome(Ok(false), n)
  }

  /** The binding dictionary `match_expr` threads through its calls and mutates. */
  class Bindings {
    var entries: map<string, Expr>

    constructor ()
      ensures entries == map[]
    {
      entries := map[];
    }
  }

  /**
   * `match_expr(expr, pattern, b)`: updates `b` in place as the specification
   * says and hands back the same object.
   */
  method Match(key: Expr -> int, expr: Expr, pattern: Expr, b: Bindings) returns (r: Result<bool>, same: Bindings)
    modifies b
    ensures same == b
    ensures Outcome(r, b.entries) == MatchSpec(key, expr, pattern, old(b.entries))
    decreases expr, 2
  {
    same := b;
    if !pattern.Compound? {
      return Ok(AtomEqual(pattern, expr)), b;
    }
    if Head(expr) != pattern.head {
      return Ok(false), b;
    }
    if |pattern.args| > |Args(expr)| {
      return Ok(false), b;
    }
    if Commutative !in Attrs(expr) {
      r := MatchLockstep(key, expr, pattern, b);
    } else {
      r := MatchGreedy(key, expr, pattern, b);
    }
  }

  /** The non-commutative branch of `match_expr` (rule.py:71-108). */
  method MatchLockstep(key: Expr -> int, expr: Expr, pattern: Expr, b: Bindings) returns (r: Result<bool>)
    requires pattern.Compound?
    modifies b
    ensures Outcome(r, b.entries) == Walk(key, expr, pattern, 0, 0, old(b.entries))
    decreases expr, 1
  {
    var ei: nat, pi: nat := 0, 0;
    while pi < |pattern.args|
      invariant Walk(key, expr, pattern, ei, pi, b.entries) == Walk(key, expr, pattern, 0, 0, old(b.entries))
      decreases |Args(expr)| - ei
    {
      if ei >= |Args(expr)| {
        return Ok(false);
      }
      var done;
      if pattern.args[pi].Blank? {
        done, r := LockstepBlank(key, expr, pattern, ei, pi, b);
        pi := pi + 1;
      } else {
        done, r, pi := LockstepConcrete(key, expr, pattern, ei, pi, b);
      }
      if done {
        return;
      }
      ei := ei + 1;
    }
    return Ok(true);
  }

  /**
   * The loop body at a `Blank` pattern child (rule.py:75-83): a bound Blank
   * must match the child again, an unbound one binds it. Either the loop ends
   * with `r`, or it goes on at the next pair with the same walk ahead of it.
   */
  method LockstepBlank(key: Expr -> int, expr: Expr, pattern: Expr, ei: nat, pi: nat, b: Bindings)
    returns (done: bool, r: Result<bool>)
    requires pattern.Compound? && pi < |pattern.args| && ei < |Args(expr)| && pattern.args[pi].Blank?
    modifies b
    ensures done ==> Outcome(r, b.entries) == Walk(key, expr, pattern, ei, pi, old(b.entries))
    ensures !done ==> Walk(key, expr, pattern, ei + 1, pi + 1, b.entries) == Walk(key, expr, pattern, ei, pi, old(b.entries))
    decreases expr, 0
  {
    var child := expr.args[ei];
    var name := pattern.args[pi].text;
    done, r := false, Ok(true);
    if name in b.entries {
      var sub, _ := Match(key, child, b.entries[name], b);
      if sub != Ok(true) {
        done, r := true, sub;
      }
    } else {
      b.entries := b.entries[name := child];
    }
  }

  /**
   * The loop body at a concrete pattern child (rule.py:84-106): a match moves
   * both indices on; a mismatch right after a Blank under an associative head
   * folds the child into that Blank's binding and keeps the pattern index.
   */
  method LockstepConcrete(key: Expr -> int, expr: Expr, pattern: Expr, ei: nat, pi: nat, b: Bindings)
    returns (done: bool, r: Result<bool>, pi': nat)
    requires pattern.Compound? && pi < |pattern.args| && ei < |Args(expr)| && !pattern.args[pi].Blank?
    modifies b
    ensures done ==> Outcome(r, b.entries) == Walk(key, expr, pattern, ei, pi, old(b.entries))
    ensures !done ==> pi' <= pi + 1
    ensures !done ==> Walk(key, expr, pattern, ei + 1, pi', b.entries) == Walk(key, expr, pattern, ei, pi, old(b.entries))
    decreases expr, 0
  {
    WalkConcreteStep(key, expr, pattern, ei, pi, b.entries);
    var sub, _ := Match(key, expr.args[ei], pattern.args[pi], b);
    if sub.Err? {
      return true, sub, pi;
    }
    if sub.value {
      return false, sub, pi + 1;
    }
    done, r := LockstepFold(key, expr, pattern, ei, pi, b, old(b.entries));
    pi' := pi;
  }

  /** At a concrete pattern child, a match moves both indices on and an exception ends the walk. */
  lemma WalkConcreteStep(key: Expr -> int, expr: Expr, pattern: Expr, ei: nat, pi: nat, m: map<string, Expr>)
    requires pattern.Compound? && pi < |pattern.args| && ei < |Args(expr)| && !pattern.args[pi].Blank?
    ensures var sub := MatchSpec(key, expr.args[ei], pattern.args[pi], m);
      && (sub.verdict == Ok(true) ==> Walk(key, expr, pattern, ei, pi, m) == Walk(key, expr, pattern, ei + 1, pi + 1, sub.bindings))
      && (sub.verdict.Err? ==> Walk(key, expr, pattern, ei, pi, m) == sub)
  {
  }

  /** A concrete pattern child missed: fold the child into the Blank before it, if there is one. */
  method LockstepFold(key: Expr -> int, expr: Expr, pattern: Expr, ei: nat, pi: nat, b: Bindings,
                      ghost before: map<string, Expr>)
    returns (done: bool, r: Result<bool>)
    requires pattern.Compound? && pi < |pattern.args| && ei < |Args(expr)| && !pattern.args[pi].Blank?
    requires MatchSpec(key, expr.args[ei], pattern.args[pi], before) == Outcome(Ok(false), b.entries)
    modifies b
    ensures done ==> Outcome(r, b.entries) == Walk(key, expr, pattern, ei, pi, before)
    ensures !done ==> Walk(key, expr, pattern, ei + 1, pi, b.entries) == Walk(key, expr, pattern, ei, pi, before)
  {
    var prev := pattern.args[if pi == 0 then |pattern.args| - 1 else pi - 1];
    if !(Associative in Attrs(expr) && prev.Blank?) {
      return true, Ok(false);
    }
    if prev.text !in b.entries {
      return true, Err(UnboundBlank);
    }
    var built := Create(key, Head(expr), [Node(b.entries[prev.text]), Node(expr.args[ei])], Attrs(expr));
    if built.Err? {
      return true, Err(built.error);
    }
    b.entries := b.entries[prev.text := built.value];
    done, r := false, Ok(true);
  }

  /** The commutative branch of `match_expr` (rule.py:109-138). */
  method MatchGreedy(key: Expr -> int, expr: Expr, pattern: Expr, b: Bindings) returns (r: Result<bool>)
    requires pattern.Compound?
    modifies b
    ensures Outcome(r, b.entries) ==
      Comm(key, expr, SortByKey(key, NonBlanks(pattern.args)), BlankNames(pattern.args), None, 0, 0, old(b.entries))
    decreases expr, 1
  {
    var nonBlanks := SortByKey(key, NonBlanks(pattern.args));
    var blanks := BlankNames(pattern.args);
    var last: Option<string> := None;
    var nb := 0;
    for k := 0 to |Args(expr)|
      invariant Comm(key, expr, nonBlanks, blanks, last, k, nb, b.entries) ==
        Comm(key, expr, SortByKey(key, NonBlanks(pattern.args)), BlankNames(pattern.args), None, 0, 0, old(b.entries))
    {
      var child := expr.args[k];
      if nb < |nonBlanks| {
        var sub, _ := Match(key, child, nonBlanks[nb], b);
        if sub.Err? {
          return sub;
        }
        if sub.value {
          nb := nb + 1;
          continue;
        }
      }
      if |blanks| == 0 {
        if Associative in Attrs(expr) && last.Some? {
          if last.value !in b.entries {
            return Err(UnboundBlank);
          }
          var binding := b.entries[last.value];
          if Head(binding) != Head(expr) {
            var built := Create(key, Head(expr), [Node(binding), Node(child)], Attrs(expr));
            if built.Err? {
              return Err(built.error);
            }
            b.entries := b.entries[last.value := built.value];
          } else {
            b.entries := b.entries[last.value := Append(binding, child)];
          }
        } else {
          return Ok(false);
        }
      } else {
        b.entries := b.entries[blanks[0] := child];
        last := Some(blanks[0]);
        blanks := blanks[1..];
      }
    }
    return Ok(true);
  }

  /**
   * `match_expr(expr, pattern)` called without a map, as evidently intended:
   * each call starts from a new empty map.
   */
  method MatchFresh(key: Expr -> int, expr: Expr, pattern: Expr) returns (r: Result<bool>, bindings: map<string, Expr>)
    ensures Outcome(r, bindings) == MatchSpec(key, expr, pattern, map[])
  {
    var b := new Bindings();
    var verdict, _ := Match(key, expr, pattern, b);
    r, bindings := verdict, b.entries;
  }
}

=== FILE: terms.dfy ===
/**
 * The expression values shared by every part of the kernel: the `Expr` class
 * and its atom subclasses (expr.py, atom.py, nums.py, rule.py), the raw values
 * that construction promotes to atoms, and the error kinds its operations raise.
 */
module Terms {
  import opened Heads

  /**
   * One variant per concrete Python class. `Compound` is a plain `Expr`; every
   * other variant is an atom subclass and carries its own payload. `Real`
   * carries an exact `real` in place of a float.
   */
  datatype Expr =
    | Compound(head: string, args: seq<Expr>, attr: set<Attribute>)
    | String(text: string)
    | Symbol(text: string)
    | Boolean(value: bool)
    | Integer(n: int)
    | Rational(num: int, den: int)
    | Real(r: real)
    | Blank(text: string)

  /** A value passed where an expression is expected: an `Expr` or a Python primitive. */
  datatype Primitive =
    | Node(e: Expr)
    | Text(s: string)
    | Bool(b: bool)
    | Int(i: int)
    | Float(f: real)
    | Other  // any value of another Python type

  /** The exceptions the modelled code raises. */
  datatype Error =
    | UnsupportedPrimitive      // atomize of a value of another type
    | ArityMismatch             // fixed-arity head with the wrong child count
    | MissingArity              // FIXED_ARG_NUM on a head with no registered arity (KeyError)
    | InvalidSymbolText         // Symbol or Blank text containing a space
    | NotAssociative            // flatten of a non-associative expression without force
    | NonPositiveDenominator    // Rational whose reduced denominator is not > 0
    | ZeroDivision              // integer division or modulo by zero
    | NotAnInteger              // Integer constructed from a non-int value
    | UnboundBlank              // binding-map lookup of a missing Blank name (KeyError)
    | UnsupportedOperand        // an operator neither operand implements (TypeError)

  datatype Result<T> = Ok(value: T) | Err(error: Error)

  datatype Option<T> = None | Some(value: T)

  /** `e.head`: the head string; every atom class passes its own class name. */
  function Head(e: Expr): (h: string)
    ensures e.Compound? ==> h == e.head
    ensures e.Integer? <==> !e.Compound? && h == "Integer"
    ensures e.Symbol? <==> !e.Compound? && h == "Symbol"
    ensures e.Blank? <==> !e.Compound? && h == "Blank"
  {
    match e
    case Compound(h, _, _) => h
    case String(_) => "String"
    case Symbol(_) => "Symbol"
    case Boolean(_) => "Boolean"
    case Integer(_) => "Integer"
    case Rational(_, _) => "Rational"
    case Real(_) => "Real"
    case Blank(_) => "Blank"
  }

  /** `e.args`: an atom is built with no children. */
  function Args(e: Expr): (args: seq<Expr>)
    ensures !e.Compound? ==> args == []
  {
    if e.Compound? then e.args else []
  }

  /**
   * `e.attr`: an atom's attribute set is that of its head, and no atom head is
   * registered, so it is empty.
   */
  function Attrs(e: Expr): (attrs: set<Attribute>)
    ensures !e.Compound? ==> attrs == {}
  {
    if e.Compound? then e.attr else AttrSet(HeadAttributes(Head(e)))
  }

  /** The number of nodes in an expression tree. */
  function Size(e: Expr): (n: nat)
    ensures n >= 1
    decreases e
  {
    if e.Compound? then 1 + SizeSum(e.args) else 1
  }

  /** The number of nodes in a sequence of trees. */
  function SizeSum(s: seq<Expr>): (n: nat)
    ensures n >= |s|
    decreases s
  {
    if s == [] then 0 else Size(s[0]) + SizeSum(s[1..])
  }

  lemma {:induction false} SizeSumConcat(a: seq<Expr>, b: seq<Expr>)
    ensures SizeSum(a + b) == SizeSum(a) + SizeSum(b)
    decreases a
  {
    if a != [] {
      assert (a + b)[1..] == a[1..] + b;
      SizeSumConcat(a[1..], b);
    } else {
      assert a + b == b;
    }
  }
}
